=== FILE: README.md ===
# Elevator dispatch and motion engine, modelled in Dafny

This project models the core of an elevator control simulator. The building has ten floors and four cars. Hall calls (a floor and a desired direction) arrive at random and are recorded in a pending-request table. A background tick advances every car by one step, in ascending id order:

- an Idle car takes the nearest pending call;
- a moving car travels one floor towards its next stop;
- a car at its stop drops riders off, picks riders up if a call waits there, and then keeps, reverses or gives up its direction.

Three commands act on the same state:

- "request elevator" picks the nearest suitable car for a new call and records the choice;
- "select destination" appends a floor to a car's destination list;
- "get status" projects every car to a status record.

Everything is written as pure functions over immutable datatypes. Randomness becomes parameters, each constrained to the range the code draws from:

- the hall-call coin, floor and direction of a tick are an `Option<HallCall>`;
- the riders who board at a stop are a `seq<int>` per car.

Modules, in dependency order:

- `Wrappers`: `Option` and `Result`.
- `Lists`: the list operations the engine relies on.
  - `List.Remove` removes the first occurrence only; `RemoveAll` removes every occurrence.
  - `Where(..).DefaultIfEmpty().Min()/Max()` yields 0 on an empty selection.
  - A stable `OrderBy(..).First(..)`.
- `Domain`: `Direction`, `Elevator` and `FloorRequest`, the seeded cars, and the invariant the engine keeps (`WellFormed`).
- `FloorRequests`: the pending-request table, as a list in insertion order with a map view `AsMap`.
- `Engine`: `Step`, one call of `ProcessElevator`.
- `Simulation`: `Tick`, one pass of the `ExecuteAsync` loop body.
- `Dispatcher`: the "request elevator" handler.
- `Commands`: the "select destination" handler.
- `Status`: the status query.

The model follows the code, including these behaviours:

- Dispatch ties go to the earliest car in the list, because `OrderBy` is stable. They are not broken by id.
- When no car is suitable, the dispatcher falls back to the first car in the list.
- The next-stop computation uses `DefaultIfEmpty()` on `int`. With no destination in the direction of travel, the target is therefore 0, not "none", and the `!nextFloor.HasValue` test is dead code. A Down or Idle car in that state descends to floor 0 and arrives there. An Up car in that state climbs without bound, because 0 is never its floor and each step is +1 (`Engine.UpRunPastDestinationClimbs`). Well-formed cars never reach either state.
- A car with an empty destination list that takes no call does nothing. No invariant-violation error is raised.
- A car that is Idle but has destinations behaves as if going Down everywhere outside the call-acceptance branch.
- Destinations and passengers are lists: duplicates are kept.
- The tick does not re-dispatch unassigned calls. Idle cars take pending calls themselves, and the dispatcher's `assignedElevatorId` is never read.
- `Elevator.cs` declares no passenger list, but the engine and the unit tests use one. The model gives every car a `passengers` list, initially empty.

## Model

| member | source | states |
|---|---|---|
| Domain.NewElevator | src/ElevatorControlSystem.Domain/Entities/Elevator.cs:7-10 | a car built with the entity's defaults keeps the given id, is at floor 1, Idle, with no destinations and no passengers, and is already in the state the engine keeps |
| Domain.SeedElevators | src/ElevatorControlSystem.Infrastructure/ElevatorDbContext.cs:16-18 | the seeded cars are ids 1..n in order, each at floor 1, Idle, with no destinations and no passengers |
| Domain.StartupSeed | src/ElevatorControlSystem.Infrastructure/ElevatorDbContext.cs:16-18 | startup seeds exactly four default cars, ids 1 to 4 in order, with distinct ids |
| Domain.SeedElevatorsWellFormed | src/ElevatorControlSystem.Domain/Entities/Elevator.cs:8-10 | a default car satisfies the engine invariant (Idle exactly when it has no destinations, inside the building); seeded ids are distinct |
| Lists.RemoveFirst | src/ElevatorControlSystem.Infrastructure/ElevatorSimulationService.cs:130 | `List.Remove`: an absent value leaves the list as it is; a present one shortens it by exactly one element |
| Lists.RemoveFirstCutsFirstOccurrence | src/ElevatorControlSystem.Infrastructure/ElevatorSimulationService.cs:130 | `Remove` cuts exactly the first occurrence out of the list and keeps the order of the rest |
| Lists.RemoveFirstMultiset | src/ElevatorControlSystem.Infrastructure/ElevatorSimulationService.cs:130 | `Remove` lowers the count of the floor by one (if present) and changes no other count |
| Lists.RemoveAll | src/ElevatorControlSystem.Infrastructure/ElevatorSimulationService.cs:92 | after `RemoveAll` no entry equals the removed floor |
| Lists.RemoveAllMultiset | src/ElevatorControlSystem.Infrastructure/ElevatorSimulationService.cs:92 | `RemoveAll` zeroes the count of that floor and keeps every other count |
| Lists.MinAtLeast | src/ElevatorControlSystem.Infrastructure/ElevatorSimulationService.cs:84 | the least element at or above the bound when one exists, otherwise 0 (the `DefaultIfEmpty` value) |
| Lists.MaxAtMost | src/ElevatorControlSystem.Infrastructure/ElevatorSimulationService.cs:85 | the greatest element at or below the bound when one exists, otherwise 0 |
| Lists.FirstMinimal | src/ElevatorControlSystem.Infrastructure/ElevatorSimulationService.cs:65-68 | stable sort then first: None exactly when nothing is eligible; otherwise an eligible position with a minimal key, before which every eligible key is strictly larger |
| Engine.NearestCall | src/ElevatorControlSystem.Infrastructure/ElevatorSimulationService.cs:65-68 | the chosen call has minimal distance, prefers the car's direction at equal distance, and is the earliest in list order among the equally good |
| Engine.NearestCallUnique | src/ElevatorControlSystem.Infrastructure/ElevatorSimulationService.cs:65-68 | at most one call of the list meets that definition |
| Engine.Target | src/ElevatorControlSystem.Infrastructure/ElevatorSimulationService.cs:83-85 | Up: the least destination at or above the floor; otherwise the greatest at or below; 0 when there is none |
| Engine.WaitingAt | src/ElevatorControlSystem.Infrastructure/ElevatorSimulationService.cs:101 | the first pending call at the floor, None exactly when no call is there |
| Engine.Arrive | src/ElevatorControlSystem.Infrastructure/ElevatorSimulationService.cs:87-152 | the car stays on its floor; riders bound there leave; the floor is struck once from destinations; boarders join both lists only when a call waits there, and that first call is consumed; the new direction is Idle, kept or reversed by what is left ahead |
| Engine.ArriveDropsOff | src/ElevatorControlSystem.Infrastructure/ElevatorSimulationService.cs:92-130 | after arrival no rider is bound for the floor, and the destination count of the floor drops by exactly one |
| Engine.Step | src/ElevatorControlSystem.Infrastructure/ElevatorSimulationService.cs:59-166 | a step keeps the car's id, consumes only a call that was pending, and preserves Idle exactly when empty |
| Engine.StepAcceptsNearest | src/ElevatorControlSystem.Infrastructure/ElevatorSimulationService.cs:63-77 | an Idle car with calls pending takes the nearest call, appends its floor, heads Up exactly when the call is above, consumes that call and does not move |
| Engine.StepWithoutWorkIsNoOp | src/ElevatorControlSystem.Infrastructure/ElevatorSimulationService.cs:63-81 | a car that takes no call and has no destinations is left unchanged and consumes nothing |
| Engine.StepMovesOneFloor | src/ElevatorControlSystem.Infrastructure/ElevatorSimulationService.cs:154-163 | short of its target the car moves one floor (up when Up, down otherwise) and nothing else changes |
| Engine.StepArrives | src/ElevatorControlSystem.Infrastructure/ElevatorSimulationService.cs:87-152 | at its target the step is the arrival: the car stays put, drops its riders for the floor, strikes the floor once, and consumes a call exactly when one waits there; who boards and the next heading are the arrival's |
| Engine.StepPreservesWellFormed | src/ElevatorControlSystem.Infrastructure/ElevatorSimulationService.cs:59-166 | with calls inside the building, a step keeps a well-formed car well formed (heading, inside the building, riders among destinations) |
| Engine.ArrivePreservesWellFormed | src/ElevatorControlSystem.Infrastructure/ElevatorSimulationService.cs:87-152 | arrival keeps a well-formed car well formed: riders aboard are bound for remaining destinations, boarders pick floors of the building, the new direction points at a remaining destination |
| Engine.ArrivalEmptiesCar | tests/ElevatorControlSystem.Tests/UnitTests.cs:78-103 | a car at 5 going Up with destination 5 and a rider for 5 ends with no riders, no destinations, Idle |
| Engine.UpRunReachesDestination | src/ElevatorControlSystem.Infrastructure/ElevatorSimulationService.cs:132-163 | a car going Up to one destination climbs one floor per step, reaches it after the difference in floors and then goes Idle |
| Engine.UpRunPastDestinationClimbs | src/ElevatorControlSystem.Infrastructure/ElevatorSimulationService.cs:81-87 | a car going Up whose only destination is below it targets the default 0 and climbs one floor per step for ever; such a car is not well formed |
| FloorRequests.Add | src/ElevatorControlSystem.Infrastructure/Repositories/FloorRequestRepository.cs:16-20 | the new request is stored under its id and every other entry is unchanged |
| FloorRequests.GetPending | src/ElevatorControlSystem.Infrastructure/Repositories/FloorRequestRepository.cs:22-25 | every stored request is returned, with no filtering, and nothing else |
| FloorRequests.Remove | src/ElevatorControlSystem.Infrastructure/Repositories/FloorRequestRepository.cs:27-38 | exactly the entry with that id leaves the table; an absent id leaves the table as it was |
| FloorRequests.RemoveIdempotent | src/ElevatorControlSystem.Infrastructure/Repositories/FloorRequestRepository.cs:31-37 | removing an id twice is the same as removing it once |
| FloorRequests.AddThenRemove | src/ElevatorControlSystem.Infrastructure/Repositories/FloorRequestRepository.cs:16-38 | removing the id just added restores the table's content |
| FloorRequests.Update | src/ElevatorControlSystem.Infrastructure/Repositories/FloorRequestRepository.cs:40-44 | a stored id has its entry replaced and nothing else changes; an absent id is an error |
| Simulation.SortById | src/ElevatorControlSystem.Infrastructure/ElevatorSimulationService.cs:48 | the cars come out in ascending id order, as many as went in |
| Simulation.SortByIdPermutes | src/ElevatorControlSystem.Infrastructure/ElevatorSimulationService.cs:48 | sorting only reorders: the same cars, each as often |
| Simulation.SortByIdKeepsIds | src/ElevatorControlSystem.Infrastructure/ElevatorSimulationService.cs:48 | sorting keeps every id, each as often |
| Simulation.AddCall | src/ElevatorControlSystem.Infrastructure/ElevatorSimulationService.cs:38-46 | a tick stores at most one new call, unassigned, and leaves the rest of the table alone |
| Simulation.StepAll | src/ElevatorControlSystem.Infrastructure/ElevatorSimulationService.cs:48-51 | one result car per car given, keeping its id and position; at most one call per car is consumed; the table stays keyed by id |
| Simulation.StepAllAppend | src/ElevatorControlSystem.Infrastructure/ElevatorSimulationService.cs:48-51 | the fold runs left to right: stepping a + b steps a, then steps b against the table a left, and lists a's consumed calls first |
| Simulation.StepAllStepsEachCar | src/ElevatorControlSystem.Infrastructure/ElevatorSimulationService.cs:48-51 | the i-th car comes back as its own step against the pending table the cars before it left; the table loses exactly the call it took, and the consumed list grows by exactly that call |
| Simulation.StepAllKeepsIdleIffEmpty | src/ElevatorControlSystem.Infrastructure/ElevatorSimulationService.cs:48-51 | stepping every car keeps Idle exactly when empty for each car that had it |
| Simulation.StepAllConsumesOnce | src/ElevatorControlSystem.Infrastructure/ElevatorSimulationService.cs:48-51 | consumed ids are distinct, were pending, and exactly they leave the table |
| Simulation.Tick | src/ElevatorControlSystem.Infrastructure/ElevatorSimulationService.cs:38-51 | the cars after a tick are in ascending id order and carry exactly the ids of the cars given, each as often |
| Simulation.TickStepsEachCar | src/ElevatorControlSystem.Infrastructure/ElevatorSimulationService.cs:38-51 | a tick steps the cars in ascending id order; the first sees the table with the tick's hall call added, each later one sees the table its predecessors left, and the last one's table and consumed list are the tick's |
| Simulation.TickConsumesOnce | src/ElevatorControlSystem.Infrastructure/ElevatorSimulationService.cs:38-51 | a tick adds only its own call and consumes no call twice; every consumed call was pending once the call was added, and leaves the table; every call not consumed is still pending |
| Simulation.TickPreservesWellFormed | src/ElevatorControlSystem.Infrastructure/ElevatorSimulationService.cs:38-51 | from well-formed cars and in-building calls, a tick yields well-formed cars and in-building calls |
| Simulation.TickKeepsIdleIffEmpty | src/ElevatorControlSystem.Infrastructure/ElevatorSimulationService.cs:48-51 | a tick keeps Idle exactly when empty for every car that had it |
| Dispatcher.ChooseElevator | src/ElevatorControlSystem.Application/Commands/Handlers/RequestElevatorCommandHandler.cs:23-25 | fails exactly on an empty car list; otherwise the nearest Idle or same-direction car, earliest in list order on ties, or the first car when none qualifies |
| Dispatcher.DispatchChoiceUnique | src/ElevatorControlSystem.Application/Commands/Handlers/RequestElevatorCommandHandler.cs:23-25 | that choice is determined: at most one car meets it |
| Dispatcher.RequestElevator | src/ElevatorControlSystem.Application/Commands/Handlers/RequestElevatorCommandHandler.cs:22-28 | exactly one request is added, with the requested floor and direction and the chosen car's id; nothing else changes; no cars means no request |
| Dispatcher.NearestIdleCarAssigned | tests/ElevatorControlSystem.Tests/UnitTests.cs:21-33 | cars (1, floor 2, Idle) and (2, floor 5, Up) with an Up call at 3: car 1 is assigned |
| Dispatcher.TieGoesToListOrder | src/ElevatorControlSystem.Application/Commands/Handlers/RequestElevatorCommandHandler.cs:24-25 | two equally near suitable cars: the earlier in the list wins although its id is larger |
| Dispatcher.FallbackIsFirstCar | src/ElevatorControlSystem.Application/Commands/Handlers/RequestElevatorCommandHandler.cs:25 | with no suitable car the first car is chosen though another is nearer |
| Commands.IndexOfCar | src/ElevatorControlSystem.Infrastructure/Repositories/ElevatorRepository.cs:21-24 | the position of the car with the id, None exactly when no car has it |
| Commands.SelectDestination | src/ElevatorControlSystem.Application/Commands/Handlers/SelectDestinationCommandHandler.cs:17-21 | a car with the id gets the floor appended (duplicates and any floor accepted) and nothing else changes; an unknown id changes nothing and reports no update |
| Commands.SelectAddsDestination | tests/ElevatorControlSystem.Tests/UnitTests.cs:41-50 | floor 5 selected in a car without destinations is recorded and the car is saved |
| Commands.SelectKeepsMovingCarWellFormed | src/ElevatorControlSystem.Application/Commands/Handlers/SelectDestinationCommandHandler.cs:20 | on a car already moving, an in-building selection keeps the car well formed |
| Commands.IdleSelectionLeavesBuilding | src/ElevatorControlSystem.Application/Commands/Handlers/SelectDestinationCommandHandler.cs:20 | on an Idle car at floor 1, selecting 5 leaves it Idle with a destination, and its next step takes it to floor 0 |
| Commands.SelectDestinationHeaded | src/ElevatorControlSystem.Application/Commands/Handlers/SelectDestinationCommandHandler.cs:20 | the corrected command: as above, and an Idle car is also given the direction towards the chosen floor |
| Commands.SelectHeadedKeepsWellFormed | src/ElevatorControlSystem.Application/Commands/Handlers/SelectDestinationCommandHandler.cs:20 | the corrected command keeps every car well formed, Idle ones included |
| Commands.HeadedSelectionClimbs | src/ElevatorControlSystem.Application/Commands/Handlers/SelectDestinationCommandHandler.cs:20 | with the corrected command the same car heads Up and its next step takes it to floor 2 |
| Status.GetStatus | src/ElevatorControlSystem.Application/Queries/Handlers/GetElevatorStatusQueryHandler.cs:19-25 | one record per car in the same order, copying id, floor, direction and destinations; the passenger list is always empty |
| Status.StatusReportsFloor | tests/ElevatorControlSystem.Tests/UnitTests.cs:59-68 | one car at floor 3 gives one record with floor 3 |
| Status.StatusDropsPassengers | src/ElevatorControlSystem.Application/Queries/Handlers/GetElevatorStatusQueryHandler.cs:19-25 | a car carrying a rider is reported without that rider |
| Status.GetStatusWithPassengers | src/ElevatorControlSystem.Application/DTOs/ElevatorStatusDto.cs:11 | the corrected query: one record per car, copying the passenger list as well |
| Status.StatusRoundTrip | src/ElevatorControlSystem.Application/DTOs/ElevatorStatusDto.cs:7-11 | every car can be rebuilt from its corrected record; the query as written equals the corrected one on cars stripped of riders |

## Left out

- The background loop, its cancellation token, the 3 s and 2 s delays, DI scopes and console logging: timing and I/O. A tick is one pure function.
- `System.Random`: the hall-call coin (`NextDouble() < 0.4`, floating point), the call's floor and direction, the rider count and the rider floors are parameters constrained to the drawn ranges.
- Id generation by the in-memory provider: a new request's id is a parameter, required fresh.
- The provider's enumeration order: the pending table is taken to list requests in insertion order, which decides ties between equally good calls.
- EF Core and hosting: the database context except its seed values, and the car repository, which is taken as the list of cars.
- HTTP, MediatR wiring, the React front end, and list aliasing between entities and status records. Collections are values.
- 32-bit `int` overflow: floors are unvalidated inputs. The request and select commands accept any `int` floor, and an Up car whose destinations are all below it climbs without bound. The model's integers are unbounded. It does not model wrap-around in `CurrentFloor += step`, nor the wrapped `a - b` inside `Math.Abs`. It also does not model the `OverflowException` that `Math.Abs(int.MinValue)` throws, in the dispatcher and in the idle-car call search. For example, a request for floor -2147483647 with a car at floor 1 throws in the source but succeeds in `Dispatcher.RequestElevator`.
- FloorRequests.Add: requires the id to be absent. Adding a duplicate key throws in the provider, and ids are generated fresh.
- FloorRequests.Update: an absent id is modelled as an error result. That matches the provider for a non-zero id, which throws on saving. For a call whose key is still the default 0, EF's `Update` tracks it as Added and `UpdateAsync` inserts it with a generated id. The model reports NotFound instead. Nothing in the core calls this method.
- Commands running during a tick: the tick holds one database scope across its awaited delays, and HTTP commands use their own scopes on the shared in-memory database. The model takes commands to run between ticks. That drops two interleavings. A destination selected mid-tick can be lost when the tick saves its stale copy of that car. A hall call requested mid-tick is seen by the cars stepped after it in that tick.

## Findings

| source | as written | input that shows it | evidently intended | confidence | as-written member | corrected member |
|---|---|---|---|---|---|---|
| src/ElevatorControlSystem.Application/Commands/Handlers/SelectDestinationCommandHandler.cs:20 | the floor is appended but an Idle car's direction stays Idle | car 1 Idle at floor 1, select floor 5, no hall calls: the next step moves it to floor 0, below the building | an Idle car given a destination heads towards it, as it does when it accepts a hall call | medium, not executed | Commands.IdleSelectionLeavesBuilding | Commands.SelectHeadedKeepsWellFormed |
| src/ElevatorControlSystem.Application/Queries/Handlers/GetElevatorStatusQueryHandler.cs:19-25 | the status record's passenger list is never filled | a car carrying a rider bound for floor 5 is reported with an empty passenger list | the record sends the riders' destination floors, as its field comment says and the front end displays | high, not executed | Status.StatusDropsPassengers | Status.GetStatusWithPassengers |

=== FILE: commands.dfy ===
/** The "select destination" command (`SelectDestinationCommandHandler.Handle`):
    a rider inside a car presses a floor button. */
module Commands {
  import opened Wrappers
  import opened Domain
  import opened Engine

  /** `FindAsync(id)`: the position of the car with that id, if any; the car
      counterpart of `FloorRequests.IndexOfId`. */
  function IndexOfCar(cars: seq<Elevator>, id: int): (r: Option<nat>)
    ensures r.None? <==> forall i :: 0 <= i < |cars| ==> cars[i].id != id
    ensures r.Some? ==> r.value < |cars| && cars[r.value].id == id
  {
    if |cars| == 0 then None
    else if cars[0].id == id then Some(0)
    else match IndexOfCar(cars[1..], id)
      case None => None
      case Some(i) => Some(i + 1)
  }

  /** The cars after the command, and whether a car was found and saved. */
  datatype SelectOutcome = SelectOutcome(cars: seq<Elevator>, updated: bool)

  /** `Handle` as written: the floor is appended to the car's destinations (a
      duplicate included) and nothing else about the car changes, in particular
      not its direction. An unknown id is silently ignored. */
  function SelectDestination(cars: seq<Elevator>, id: int, floor: int): (r: SelectOutcome)
    requires DistinctIds(cars)
    ensures r.updated <==> exists i :: 0 <= i < |cars| && cars[i].id == id
    ensures !r.updated ==> r.cars == cars
    ensures |r.cars| == |cars|
    ensures forall i :: 0 <= i < |cars| && cars[i].id != id ==> r.cars[i] == cars[i]
    ensures forall i :: 0 <= i < |cars| && cars[i].id == id ==>
              r.cars[i] == cars[i].(destinations := cars[i].destinations + [floor])
  {
    match IndexOfCar(cars, id)
    case None => SelectOutcome(cars, false)
    case Some(i) =>
      var e := cars[i];
      SelectOutcome(cars[i := e.(destinations := e.destinations + [floor])], true)
  }

  /** Selecting floor 5 in car 1 with no destinations records 5 and saves the
      car. */
  lemma SelectAddsDestination()
    ensures var r := SelectDestination([NewElevator(1)], 1, 5);
      r.updated && 5 in r.cars[0].destinations
  {
  }

  /** A selection keeps the invariant when the car is already moving: the new
      floor is inside the building and the old heading target is still there. */
  lemma SelectKeepsMovingCarWellFormed(cars: seq<Elevator>, id: int, floor: int)
    requires DistinctIds(cars) && InBuilding(floor)
    requires forall i :: 0 <= i < |cars| && cars[i].id == id ==>
               WellFormed(cars[i]) && cars[i].direction != Idle
    ensures forall i :: 0 <= i < |cars| && cars[i].id == id ==>
              WellFormed(SelectDestination(cars, id, floor).cars[i])
  {
    var r := SelectDestination(cars, id, floor);
    forall i | 0 <= i < |cars| && cars[i].id == id
      ensures WellFormed(r.cars[i])
    {
      var e := cars[i];
      var e' := r.cars[i];
      assert e' == e.(destinations := e.destinations + [floor]);
      forall d | d in e.destinations ensures d in e'.destinations {
        var k :| 0 <= k < |e.destinations| && e.destinations[k] == d;
        assert e'.destinations[k] == d;
      }
    }
  }

  /** The command as written breaks the invariant on an Idle car: a car resting
      at floor 1 is given floor 5 but stays Idle. With no hall calls the next
      step treats it as going Down (it finds no destination at or below it, so
      its target is the sentinel 0) and moves it to floor 0, below the building. */
  lemma IdleSelectionLeavesBuilding()
    ensures var r := SelectDestination([NewElevator(1)], 1, 5);
      && r.cars[0] == Elevator(1, 1, Idle, [5], [])
      && !IdleIffEmpty(r.cars[0])
      && Step(r.cars[0], [], [1]).car.currentFloor == 0
      && !InBuilding(Step(r.cars[0], [], [1]).car.currentFloor)
  {
    var e := Elevator(1, 1, Idle, [5], []);
    assert Target(e) == 0;
  }

  /** Corrected command: a selection that lands on an Idle car also sets its
      direction towards the chosen floor (Down when it is the current floor, so
      that the next step arrives there), as an Idle car does when it accepts a
      hall call. */
  function SelectDestinationHeaded(cars: seq<Elevator>, id: int, floor: int): (r: SelectOutcome)
    requires DistinctIds(cars)
    ensures r.updated <==> exists i :: 0 <= i < |cars| && cars[i].id == id
    ensures |r.cars| == |cars|
    ensures forall i :: 0 <= i < |cars| && cars[i].id != id ==> r.cars[i] == cars[i]
    ensures forall i :: 0 <= i < |cars| && cars[i].id == id ==>
              && r.cars[i].id == cars[i].id
              && r.cars[i].currentFloor == cars[i].currentFloor
              && r.cars[i].passengers == cars[i].passengers
              && r.cars[i].destinations == cars[i].destinations + [floor]
              && (cars[i].direction != Idle ==> r.cars[i].direction == cars[i].direction)
              && (cars[i].direction == Idle ==>
                    r.cars[i].direction == (if floor > cars[i].currentFloor then Up else Down))
  {
    match IndexOfCar(cars, id)
    case None => SelectOutcome(cars, false)
    case Some(i) =>
      var e := cars[i];
      var dir := if e.direction != Idle then e.direction
                 else if floor > e.currentFloor then Up else Down;
      SelectOutcome(cars[i := e.(direction := dir, destinations := e.destinations + [floor])], true)
  }

  /** The corrected command keeps every car well formed, Idle ones included. */
  lemma SelectHeadedKeepsWellFormed(cars: seq<Elevator>, id: int, floor: int)
    requires DistinctIds(cars) && InBuilding(floor)
    requires forall i :: 0 <= i < |cars| ==> WellFormed(cars[i])
    ensures forall i :: 0 <= i < |cars| ==> WellFormed(SelectDestinationHeaded(cars, id, floor).cars[i])
  {
    var r := SelectDestinationHeaded(cars, id, floor);
    forall i | 0 <= i < |cars| && cars[i].id == id
      ensures WellFormed(r.cars[i])
    {
      var e := cars[i];
      var e' := r.cars[i];
      var n := |e.destinations|;
      assert e'.destinations[n] == floor;
      assert floor in e'.destinations;
      forall d | d in e.destinations ensures d in e'.destinations {
        var k :| 0 <= k < n && e.destinations[k] == d;
        assert e'.destinations[k] == d;
      }
    }
  }

  /** Unlike the command as written, the corrected one leaves the car of the
      example above heading Up, and its next step takes it to floor 2. */
  lemma HeadedSelectionClimbs()
    ensures var r := SelectDestinationHeaded([NewElevator(1)], 1, 5);
      && r.cars[0] == Elevator(1, 1, Up, [5], [])
      && Step(r.cars[0], [], [2]).car.currentFloor == 2
  {
    var e := Elevator(1, 1, Up, [5], []);
    assert Target(e) == 5;
  }
}

=== FILE: dispatcher.dfy ===
/** The "request elevator" command (`RequestElevatorCommandHandler.Handle`): pick
    a car for a hall call and record the call with that choice. The record is
    advisory; the engine does not read it. */
module Dispatcher {
  import opened Wrappers
  import opened Lists
  import opened Domain
  import opened FloorRequests

  /** `First()` on an empty car list throws: there is nobody to assign. */
  datatype DispatchError = NoElevators

  /** A car that is Idle or already travelling the requested way. */
  predicate Suitable(e: Elevator, dir: Direction)
  {
    e.direction == dir || e.direction == Idle
  }

  /** Reference definition of the choice: among suitable cars the nearest, ties
      going to the earliest in the list; with no suitable car, the first car. */
  ghost predicate IsDispatchChoice(cars: seq<Elevator>, floor: int, dir: Direction, i: int)
  {
    && 0 <= i < |cars|
    && if exists j :: 0 <= j < |cars| && Suitable(cars[j], dir) then
         && Suitable(cars[i], dir)
         && (forall j :: 0 <= j < |cars| && Suitable(cars[j], dir) ==>
               Distance(cars[i].currentFloor, floor) <= Distance(cars[j].currentFloor, floor))
         && (forall j :: 0 <= j < i && Suitable(cars[j], dir) ==>
               Distance(cars[i].currentFloor, floor) < Distance(cars[j].currentFloor, floor))
       else i == 0
  }

  /** The choice is determined: no two positions both fit the definition. */
  lemma DispatchChoiceUnique(cars: seq<Elevator>, floor: int, dir: Direction, i: int, k: int)
    requires IsDispatchChoice(cars, floor, dir, i) && IsDispatchChoice(cars, floor, dir, k)
    ensures i == k
  {
  }

  /** `OrderBy(distance).FirstOrDefault(suitable) ?? First()`: position of the
      chosen car in the list. */
  function ChooseElevator(cars: seq<Elevator>, floor: int, dir: Direction): (r: Result<nat, DispatchError>)
    ensures r.Failure? <==> |cars| == 0
    ensures r.Success? ==> IsDispatchChoice(cars, floor, dir, r.value)
  {
    if |cars| == 0 then Failure(NoElevators)
    else
      var keys := seq(|cars|, j requires 0 <= j < |cars| => Distance(cars[j].currentFloor, floor));
      var ok := seq(|cars|, j requires 0 <= j < |cars| => Suitable(cars[j], dir));
      assert forall j :: 0 <= j < |cars| ==>
               keys[j] == Distance(cars[j].currentFloor, floor) && (ok[j] <==> Suitable(cars[j], dir));
      match FirstMinimal(keys, ok)
      case Some(i) => Success(i)
      case None => Success(0)
  }

  /** `Handle`: exactly one call is added, for the requested floor and direction
      and assigned to the chosen car; the other entries are untouched. With no
      cars nothing is stored. Car state is not an output: it is never changed. */
  function RequestElevator(cars: seq<Elevator>, requests: Store, floor: int, dir: Direction,
                           newId: int): (r: Result<Store, DispatchError>)
    requires KeyedById(requests) && !Stores(requests, newId)
    ensures r.Failure? <==> |cars| == 0
    ensures r.Success? ==> KeyedById(r.value)
    ensures r.Success? ==>
              exists i :: IsDispatchChoice(cars, floor, dir, i)
                && AsMap(r.value) == AsMap(requests)[newId := FloorRequest(newId, floor, dir, Some(cars[i].id))]
  {
    match ChooseElevator(cars, floor, dir)
    case Failure(err) => Failure(err)
    case Success(i) => Success(Add(requests, FloorRequest(newId, floor, dir, Some(cars[i].id))))
  }

  /** Car 1 idles at floor 2 and car 2 goes Up from floor 5; an Up call at floor 3
      goes to car 1, the nearer suitable car. */
  lemma NearestIdleCarAssigned()
    ensures var cars := [Elevator(1, 2, Idle, [], []), Elevator(2, 5, Up, [], [])];
      var r := RequestElevator(cars, [], 3, Up, 1);
      r.Success? && AsMap(r.value)[1].assignedElevatorId == Some(1)
  {
    var cars := [Elevator(1, 2, Idle, [], []), Elevator(2, 5, Up, [], [])];
    assert IsDispatchChoice(cars, 3, Up, 0);
    var r := RequestElevator(cars, [], 3, Up, 1);
    var i :| IsDispatchChoice(cars, 3, Up, i)
             && AsMap(r.value) == AsMap([])[1 := FloorRequest(1, 3, Up, Some(cars[i].id))];
    DispatchChoiceUnique(cars, 3, Up, 0, i);
  }

  /** Equally near suitable cars: the earlier in the list wins, whatever the ids. */
  lemma TieGoesToListOrder()
    ensures var cars := [Elevator(2, 4, Idle, [], []), Elevator(1, 2, Idle, [], [])];
      ChooseElevator(cars, 3, Up) == Success(0)
  {
    var cars := [Elevator(2, 4, Idle, [], []), Elevator(1, 2, Idle, [], [])];
    assert IsDispatchChoice(cars, 3, Up, 0);
    DispatchChoiceUnique(cars, 3, Up, 0, ChooseElevator(cars, 3, Up).value);
  }

  /** No suitable car: the first car in the list is chosen even when another is
      nearer. */
  lemma FallbackIsFirstCar()
    ensures var cars := [Elevator(1, 9, Down, [2], []), Elevator(2, 3, Down, [1], [])];
      ChooseElevator(cars, 3, Up) == Success(0)
  {
    var cars := [Elevator(1, 9, Down, [2], []), Elevator(2, 3, Down, [1], [])];
    assert IsDispatchChoice(cars, 3, Up, 0);
    DispatchChoiceUnique(cars, 3, Up, 0, ChooseElevator(cars, 3, Up).value);
  }
}

=== FILE: domain.dfy ===
/** The entities of the elevator bank (cars and hall calls), their defaults and
    the invariants the engine is meant to keep. */
module Domain {
  import opened Wrappers

  /** Floors are numbered 1 to `FloorCount`; the engine hard-codes ten. */
  const FloorCount: int := 10

  /** Number of cars seeded into the store at startup. */
  const ElevatorCount: nat := 4

  datatype Direction = Up | Down | Idle

  /** One car. `destinations` and `passengers` are lists, not sets: duplicates are
      kept. Each passenger is recorded by the floor they are bound for. */
  datatype Elevator = Elevator(
    id: int,
    currentFloor: int,
    direction: Direction,
    destinations: seq<int>,
    passengers: seq<int>)

  /** A hall call. `assignedElevatorId` is advisory: the engine ignores it. */
  datatype FloorRequest = FloorRequest(
    id: int,
    floor: int,
    direction: Direction,
    assignedElevatorId: Option<int>)

  /** A car as constructed with the entity's property defaults. */
  function NewElevator(id: int): (e: Elevator)
    ensures e.id == id
    ensures e.currentFloor == 1 && e.direction == Idle
    ensures e.destinations == [] && e.passengers == []
    ensures WellFormed(e)
  {
    Elevator(id, 1, Idle, [], [])
  }

  /** The cars seeded at startup: ids 1 to `n`, in that order, all with defaults. */
  function SeedElevators(n: nat): (cars: seq<Elevator>)
    ensures |cars| == n
    ensures forall i :: 0 <= i < n ==> cars[i].id == i + 1
    ensures forall i :: 0 <= i < n ==>
              cars[i].currentFloor == 1 && cars[i].direction == Idle
              && cars[i].destinations == [] && cars[i].passengers == []
  {
    if n == 0 then [] else SeedElevators(n - 1) + [NewElevator(n)]
  }

  /** `Math.Abs(a - b)`: how many floors apart two floors are. */
  function Distance(a: int, b: int): nat
  {
    if a >= b then a - b else b - a
  }

  predicate InBuilding(floor: int)
  {
    1 <= floor <= FloorCount
  }

  /** A car is Idle exactly when it has nowhere to go. */
  predicate IdleIffEmpty(e: Elevator)
  {
    e.direction == Idle <==> |e.destinations| == 0
  }

  /** A moving car has a destination ahead of it, or at its floor. */
  predicate Heading(e: Elevator)
  {
    && (e.direction == Up ==> exists d :: d in e.destinations && d >= e.currentFloor)
    && (e.direction == Down ==> exists d :: d in e.destinations && d <= e.currentFloor)
  }

  /** The state the engine keeps every car in, when left to itself: Idle exactly
      when empty, heading towards a destination, inside the building, and every
      rider's floor still among the destinations. */
  predicate WellFormed(e: Elevator)
  {
    && IdleIffEmpty(e)
    && Heading(e)
    && InBuilding(e.currentFloor)
    && (forall d :: d in e.destinations ==> InBuilding(d))
    && (forall p :: p in e.passengers ==> p in e.destinations)
  }

  /** No two cars of a list share an id, as in a store keyed by id. The pending
      table states the same for hall calls (`FloorRequests.KeyedById`); the two
      are kept apart because cars and calls are different record types with no
      common supertype to state it once over. */
  predicate DistinctIds(cars: seq<Elevator>)
  {
    forall i, j :: 0 <= i < j < |cars| ==> cars[i].id != cars[j].id
  }

  /** Every seeded car starts in the state the engine keeps, and the seed ids are
      distinct. */
  lemma SeedElevatorsWellFormed(n: nat)
    ensures DistinctIds(SeedElevators(n))
    ensures forall i :: 0 <= i < n ==> WellFormed(SeedElevators(n)[i])
  {
  }

  /** The startup seed is four default cars with ids 1 to 4, in that order. */
  lemma StartupSeed()
    ensures SeedElevators(ElevatorCount)
         == [NewElevator(1), NewElevator(2), NewElevator(3), NewElevator(4)]
    ensures DistinctIds(SeedElevators(ElevatorCount))
  {
    SeedElevatorsWellFormed(ElevatorCount);
    assert SeedElevators(0) == [];
    assert SeedElevators(1) == [NewElevator(1)];
    assert SeedElevators(2) == [NewElevator(1), NewElevator(2)];
    assert SeedElevators(3) == [NewElevator(1), NewElevator(2), NewElevator(3)];
  }
}

=== FILE: engine.dfy ===
/** One step of one car (`ProcessElevator`): take a hall call when idle, move one
    floor towards the next destination, or open the doors and exchange riders. */
module Engine {
  import opened Wrappers
  import opened Lists
  import opened Domain

  /** What one step yields: the car's new state, and the id of the hall call it
      consumed (the store removes it), if any. */
  datatype StepOutcome = StepOutcome(car: Elevator, taken: Option<int>)

  /** Whether a call's direction equals the car's; such calls come first among
      calls at the same distance. */
  predicate SameDirection(r: FloorRequest, e: Elevator)
  {
    r.direction == e.direction
  }

  /** Reference definition of the call an idle car takes: nearest floor first, a
      call in the car's own direction before one that is not, and otherwise the
      earliest in the pending list. */
  ghost predicate IsNearestCall(e: Elevator, pending: seq<FloorRequest>, i: int)
  {
    && 0 <= i < |pending|
    && (forall j :: 0 <= j < |pending| ==>
          Distance(pending[i].floor, e.currentFloor) <= Distance(pending[j].floor, e.currentFloor))
    && (forall j :: 0 <= j < |pending| && SameDirection(pending[j], e)
          && Distance(pending[j].floor, e.currentFloor) == Distance(pending[i].floor, e.currentFloor)
          ==> SameDirection(pending[i], e))
    && (forall j :: 0 <= j < i ==>
          || Distance(pending[i].floor, e.currentFloor) < Distance(pending[j].floor, e.currentFloor)
          || (SameDirection(pending[i], e) && !SameDirection(pending[j], e)))
  }

  /** Sort key of `OrderBy(distance).ThenBy(same direction ? 0 : 1)`, folded into
      one integer. */
  function CallRank(r: FloorRequest, e: Elevator): int
  {
    2 * Distance(r.floor, e.currentFloor) + (if SameDirection(r, e) then 0 else 1)
  }

  /** Position of the call an idle car takes: the first element of the pending
      list after a stable sort by `CallRank`. */
  function NearestCall(e: Elevator, pending: seq<FloorRequest>): (i: nat)
    requires |pending| > 0
    ensures IsNearestCall(e, pending, i)
  {
    var keys := seq(|pending|, j requires 0 <= j < |pending| => CallRank(pending[j], e));
    var everyone := seq(|pending|, j => true);
    var pick := FirstMinimal(keys, everyone);
    assert everyone[0];
    assert forall j :: 0 <= j < |pending| ==> keys[j] == CallRank(pending[j], e) && everyone[j];
    RankMinimalIsNearest(e, pending, pick.value);
    pick.value
  }

  /** Comparing `CallRank`s is comparing distances, then directions. */
  lemma RankMinimalIsNearest(e: Elevator, pending: seq<FloorRequest>, i: int)
    requires 0 <= i < |pending|
    requires forall j :: 0 <= j < |pending| ==> CallRank(pending[i], e) <= CallRank(pending[j], e)
    requires forall j :: 0 <= j < i ==> CallRank(pending[i], e) < CallRank(pending[j], e)
    ensures IsNearestCall(e, pending, i)
  {
  }

  /** No call later in the list than the nearest one also fits the definition. */
  lemma NothingLaterIsNearest(e: Elevator, pending: seq<FloorRequest>, a: int)
    requires IsNearestCall(e, pending, a)
    ensures forall b :: a < b < |pending| ==> !IsNearestCall(e, pending, b)
  {
    forall b | a < b < |pending|
      ensures !IsNearestCall(e, pending, b)
    {
      var da := Distance(pending[a].floor, e.currentFloor);
      var db := Distance(pending[b].floor, e.currentFloor);
      assert da <= db;
      if da < db {
        assert !(db <= da);
      } else {
        if SameDirection(pending[b], e) {
          assert SameDirection(pending[a], e);
        }
        assert !(db < da || (SameDirection(pending[b], e) && !SameDirection(pending[a], e)));
      }
    }
  }

  /** At most one position is the nearest call, so the choice is determined. */
  lemma NearestCallUnique(e: Elevator, pending: seq<FloorRequest>, i: int, k: int)
    requires IsNearestCall(e, pending, i) && IsNearestCall(e, pending, k)
    ensures i == k
  {
    NothingLaterIsNearest(e, pending, i);
    NothingLaterIsNearest(e, pending, k);
  }

  /** `nextFloor`: the nearest destination at or above the car when going Up, at
      or below it otherwise; 0 (the integer default) when there is none. */
  function Target(e: Elevator): (t: int)
    ensures e.direction == Up && (exists d :: d in e.destinations && d >= e.currentFloor) ==>
              && t in e.destinations && t >= e.currentFloor
              && forall d :: d in e.destinations && d >= e.currentFloor ==> t <= d
    ensures e.direction != Up && (exists d :: d in e.destinations && d <= e.currentFloor) ==>
              && t in e.destinations && t <= e.currentFloor
              && forall d :: d in e.destinations && d <= e.currentFloor ==> d <= t
    ensures e.direction == Up && (forall d :: d in e.destinations ==> d < e.currentFloor) ==> t == 0
    ensures e.direction != Up && (forall d :: d in e.destinations ==> d > e.currentFloor) ==> t == 0
  {
    if e.direction == Up then MinAtLeast(e.destinations, e.currentFloor)
    else MaxAtMost(e.destinations, e.currentFloor)
  }

  /** Lowest floor a boarding rider may choose (`minDest`). */
  function MinDest(e: Elevator): int
  {
    if e.direction == Up then e.currentFloor + 1 else 1
  }

  /** One past the highest floor a boarding rider may choose (`maxDest`). */
  function MaxDest(e: Elevator): int
  {
    if e.direction == Up then FloorCount + 1 else e.currentFloor
  }

  /** The random draws of one pickup: 1 to 3 riders, each bound for a floor in
      `[MinDest, MaxDest)` whenever that range is non-empty. */
  predicate ValidRiders(e: Elevator, riders: seq<int>)
  {
    && 1 <= |riders| <= 3
    && (MinDest(e) < MaxDest(e) ==> forall x :: x in riders ==> MinDest(e) <= x < MaxDest(e))
  }

  /** `FirstOrDefault(r => r.Floor == floor)`: the first pending call at `floor`. */
  function WaitingAt(pending: seq<FloorRequest>, floor: int): (r: Option<nat>)
    ensures r.None? <==> forall j :: 0 <= j < |pending| ==> pending[j].floor != floor
    ensures r.Some? ==> r.value < |pending| && pending[r.value].floor == floor
    ensures r.Some? ==> forall j :: 0 <= j < r.value ==> pending[j].floor != floor
  {
    if |pending| == 0 then None
    else if pending[0].floor == floor then Some(0)
    else
      var rest := WaitingAt(pending[1..], floor);
      if rest.None? then None else Some(rest.value + 1)
  }

  /** Riders who board on arrival: the draws, when a call waits here and the
      destination range is non-empty; nobody otherwise. */
  function Boarding(e: Elevator, pending: seq<FloorRequest>, riders: seq<int>): seq<int>
  {
    if WaitingAt(pending, e.currentFloor).Some? && MinDest(e) < MaxDest(e) then riders else []
  }

  /** Whether some destination lies strictly beyond `floor` in the direction of
      travel (`hasMoreInCurrentDir`); every direction but Up looks downwards. */
  predicate HasMoreAhead(dests: seq<int>, dir: Direction, floor: int)
  {
    if dir == Up then exists d :: d in dests && d > floor
    else exists d :: d in dests && d < floor
  }

  /** Direction chosen when the doors close over `dests`: Idle when empty, kept
      while work lies ahead, reversed otherwise (Idle reverses to Up). */
  function DirectionAfterArrival(dests: seq<int>, dir: Direction, floor: int): Direction
  {
    if |dests| == 0 then Idle
    else if HasMoreAhead(dests, dir, floor) then dir
    else if dir == Up then Down
    else Up
  }

  /** Doors open at the car's floor: riders bound here leave, a call waiting here
      is served, this floor is struck off once, and the direction is re-chosen. */
  function Arrive(e: Elevator, pending: seq<FloorRequest>, riders: seq<int>): (r: StepOutcome)
    requires ValidRiders(e, riders)
    ensures r.car.id == e.id && r.car.currentFloor == e.currentFloor
    // pickup: a call is consumed exactly when one waits here, and it is the first one
    ensures r.taken.Some? <==> exists j :: 0 <= j < |pending| && pending[j].floor == e.currentFloor
    ensures r.taken.Some? ==>
              exists k :: 0 <= k < |pending| && pending[k].floor == e.currentFloor && r.taken.value == pending[k].id
                          && forall j :: 0 <= j < k ==> pending[j].floor != e.currentFloor
    ensures r.taken.None? ==> Boarding(e, pending, riders) == []
    // contents: the old lists minus this floor, plus the boarding riders
    ensures r.car.passengers == RemoveAll(e.passengers, e.currentFloor) + Boarding(e, pending, riders)
    ensures r.car.destinations == RemoveFirst(e.destinations, e.currentFloor) + Boarding(e, pending, riders)
    // direction: Idle when empty, otherwise kept while work lies ahead, else reversed
    ensures |r.car.destinations| == 0 ==> r.car.direction == Idle
    ensures |r.car.destinations| > 0 ==>
              r.car.direction ==
                if HasMoreAhead(e.destinations + Boarding(e, pending, riders), e.direction, e.currentFloor)
                then e.direction
                else if e.direction == Up then Down else Up
  {
    var cur := e.currentFloor;
    var waiting := WaitingAt(pending, cur);
    var boarded := Boarding(e, pending, riders);
    var dests := RemoveFirst(e.destinations + boarded, cur);
    var taken := if waiting.Some? then Some(pending[waiting.value].id) else None;
    ArrivalFacts(e, boarded);
    StepOutcome(
      Elevator(e.id, cur, DirectionAfterArrival(dests, e.direction, cur), dests,
               RemoveAll(e.passengers, cur) + boarded),
      taken)
  }

  /** Drop-off: after the doors close nobody aboard is bound for this floor, and
      the floor has been struck off the destinations exactly once. */
  lemma ArriveDropsOff(e: Elevator, pending: seq<FloorRequest>, riders: seq<int>)
    requires ValidRiders(e, riders)
    ensures e.currentFloor !in Arrive(e, pending, riders).car.passengers
    ensures e.currentFloor in e.destinations ==>
              multiset(Arrive(e, pending, riders).car.destinations)[e.currentFloor]
              == multiset(e.destinations)[e.currentFloor] - 1
    ensures e.currentFloor !in e.destinations ==> e.currentFloor !in Arrive(e, pending, riders).car.destinations
  {
    var r := Arrive(e, pending, riders);
    var boarded := Boarding(e, pending, riders);
    ArrivalFacts(e, boarded);
    assert multiset(r.car.destinations) == multiset(RemoveFirst(e.destinations, e.currentFloor)) + multiset(boarded);
  }

  /** The list facts behind `Arrive`'s contract: boarding riders are never bound
      for the current floor, so striking it off commutes with their boarding. */
  lemma ArrivalFacts(e: Elevator, boarded: seq<int>)
    requires forall x :: x in boarded ==> MinDest(e) <= x < MaxDest(e)
    ensures e.currentFloor !in boarded
    ensures RemoveFirst(e.destinations + boarded, e.currentFloor)
            == RemoveFirst(e.destinations, e.currentFloor) + boarded
    ensures multiset(RemoveFirst(e.destinations, e.currentFloor)) == multiset(e.destinations) - multiset{e.currentFloor}
    ensures e.currentFloor !in RemoveAll(e.passengers, e.currentFloor) + boarded
    ensures forall d :: (d in RemoveFirst(e.destinations + boarded, e.currentFloor) && d != e.currentFloor)
                        <==> (d in e.destinations + boarded && d != e.currentFloor)
  {
    var cur := e.currentFloor;
    RemoveFirstAppend(e.destinations, boarded, cur);
    RemoveFirstMultiset(e.destinations, cur);
    RemoveFirstKeepsOthers(e.destinations + boarded, cur);
  }

  /** Move one floor: up when going Up, down otherwise (Idle included). */
  function MoveOneFloor(e: Elevator): Elevator
  {
    e.(currentFloor := e.currentFloor + (if e.direction == Up then 1 else -1))
  }

  /** `ProcessElevator`: one step of one car against the current pending list. */
  function Step(e: Elevator, pending: seq<FloorRequest>, riders: seq<int>): (r: StepOutcome)
    requires ValidRiders(e, riders)
    ensures r.car.id == e.id
    ensures r.taken.Some? ==> exists j :: 0 <= j < |pending| && pending[j].id == r.taken.value
    ensures IdleIffEmpty(e) ==> IdleIffEmpty(r.car)
  {
    if e.direction == Idle && |pending| > 0 then
      var call := pending[NearestCall(e, pending)];
      StepOutcome(
        e.(direction := if call.floor > e.currentFloor then Up else Down,
           destinations := e.destinations + [call.floor]),
        Some(call.id))
    else if |e.destinations| == 0 then StepOutcome(e, None)
    else if Target(e) == e.currentFloor then Arrive(e, pending, riders)
    else StepOutcome(MoveOneFloor(e), None)
  }

  /** Idle car with calls pending: it takes the nearest call, heads Up exactly
      when the call is above it (Down otherwise, the same floor included), adds
      the call's floor to its destinations, consumes that call and stays put. */
  lemma StepAcceptsNearest(e: Elevator, pending: seq<FloorRequest>, riders: seq<int>)
    requires ValidRiders(e, riders)
    requires e.direction == Idle && |pending| > 0
    ensures var r := Step(e, pending, riders);
      exists i ::
        && IsNearestCall(e, pending, i)
        && r.taken == Some(pending[i].id)
        && r.car.destinations == e.destinations + [pending[i].floor]
        && (r.car.direction == Up <==> pending[i].floor > e.currentFloor)
        && r.car.direction != Idle
        && r.car.currentFloor == e.currentFloor
        && r.car.passengers == e.passengers
  {
    var i := NearestCall(e, pending);
    assert IsNearestCall(e, pending, i);
  }

  /** A car that neither takes a call nor has destinations does nothing. */
  lemma StepWithoutWorkIsNoOp(e: Elevator, pending: seq<FloorRequest>, riders: seq<int>)
    requires ValidRiders(e, riders)
    requires !(e.direction == Idle && |pending| > 0) && |e.destinations| == 0
    ensures Step(e, pending, riders) == StepOutcome(e, None)
  {
  }

  /** Short of its target, a car moves exactly one floor (up when going Up, down
      otherwise) and nothing else changes; no call is consumed. */
  lemma StepMovesOneFloor(e: Elevator, pending: seq<FloorRequest>, riders: seq<int>)
    requires ValidRiders(e, riders)
    requires !(e.direction == Idle && |pending| > 0) && |e.destinations| > 0
    requires Target(e) != e.currentFloor
    ensures var r := Step(e, pending, riders);
      && r.taken == None
      && r.car.currentFloor == e.currentFloor + (if e.direction == Up then 1 else -1)
      && r.car.direction == e.direction
      && r.car.destinations == e.destinations
      && r.car.passengers == e.passengers
  {
  }

  /** At its target a car opens its doors: the step is the arrival (so who boards
      and where the car heads next are `Arrive`'s promises); it stays on its floor,
      nobody aboard is left bound for it, the floor is struck off once, and a call
      is consumed exactly when one waits there. */
  lemma StepArrives(e: Elevator, pending: seq<FloorRequest>, riders: seq<int>)
    requires ValidRiders(e, riders)
    requires !(e.direction == Idle && |pending| > 0) && |e.destinations| > 0
    requires Target(e) == e.currentFloor
    ensures Step(e, pending, riders) == Arrive(e, pending, riders)
    ensures var r := Step(e, pending, riders);
      && r.car.currentFloor == e.currentFloor
      && e.currentFloor !in r.car.passengers
      && (e.currentFloor in e.destinations ==>
            multiset(r.car.destinations)[e.currentFloor] == multiset(e.destinations)[e.currentFloor] - 1)
      && (r.taken.Some? <==> exists j :: 0 <= j < |pending| && pending[j].floor == e.currentFloor)
  {
    ArriveDropsOff(e, pending, riders);
  }

  /** Left to itself, the engine keeps every car well formed: Idle exactly when
      empty, heading towards a destination, inside the building, and carrying only
      riders whose floor is still a destination, as long as every pending call is
      for a floor of the building. */
  lemma StepPreservesWellFormed(e: Elevator, pending: seq<FloorRequest>, riders: seq<int>)
    requires ValidRiders(e, riders)
    requires WellFormed(e)
    requires forall j :: 0 <= j < |pending| ==> InBuilding(pending[j].floor)
    ensures WellFormed(Step(e, pending, riders).car)
  {
    if e.direction == Idle && |pending| > 0 {
      var i := NearestCall(e, pending);
      assert pending[i].floor in Step(e, pending, riders).car.destinations;
    } else if |e.destinations| == 0 {
    } else if Target(e) == e.currentFloor {
      ArrivePreservesWellFormed(e, pending, riders);
    } else {
      var t := Target(e);
      assert t in e.destinations;
    }
  }

  /** The arrival case of the invariant: riders still aboard are bound for
      floors still among the destinations, boarders pick floors of the building,
      and the new direction points at a remaining destination. */
  lemma ArrivePreservesWellFormed(e: Elevator, pending: seq<FloorRequest>, riders: seq<int>)
    requires ValidRiders(e, riders)
    requires WellFormed(e) && |e.destinations| > 0
    ensures WellFormed(Arrive(e, pending, riders).car)
  {
    var r := Arrive(e, pending, riders);
    var cur := e.currentFloor;
    var boarded := Boarding(e, pending, riders);
    ArrivalFacts(e, boarded);
    assert e.direction != Idle;
    assert forall x :: x in boarded ==> InBuilding(x);
    RidersStayDestinations(e, pending, riders);
    if |r.car.destinations| > 0 {
      var d0 := r.car.destinations[0];
      assert d0 in r.car.destinations;
      if HasMoreAhead(e.destinations + boarded, e.direction, cur) {
        if e.direction == Up {
          var d :| d in e.destinations + boarded && d > cur;
          assert d in r.car.destinations;
        } else {
          var d :| d in e.destinations + boarded && d < cur;
          assert d in r.car.destinations;
        }
      } else if e.direction == Up {
        assert d0 <= cur;
      } else {
        assert d0 >= cur;
      }
    }
  }

  /** After arrival every rider aboard is bound for a floor still among the
      destinations. */
  lemma RidersStayDestinations(e: Elevator, pending: seq<FloorRequest>, riders: seq<int>)
    requires ValidRiders(e, riders)
    requires WellFormed(e) && |e.destinations| > 0
    ensures var r := Arrive(e, pending, riders);
      forall p :: p in r.car.passengers ==> p in r.car.destinations
  {
    var r := Arrive(e, pending, riders);
    var cur := e.currentFloor;
    var boarded := Boarding(e, pending, riders);
    ArrivalFacts(e, boarded);
    forall p | p in r.car.passengers
      ensures p in r.car.destinations
    {
      if p !in boarded {
        assert p in RemoveAll(e.passengers, cur);
        RemoveAllMultiset(e.passengers, cur);
        assert multiset(RemoveAll(e.passengers, cur))[p] > 0;
        assert p in e.passengers && p != cur;
      }
    }
  }

  /** A car at floor 5 going Up, with 5 as its one destination and one rider
      bound there, and nobody waiting: the step drops the rider off, clears the
      destination and the car goes Idle. */
  lemma ArrivalEmptiesCar()
    ensures var r := Step(Elevator(1, 5, Up, [5], [5]), [], [6]);
      r.car == Elevator(1, 5, Idle, [], []) && r.taken == None
  {
    var e := Elevator(1, 5, Up, [5], [5]);
    assert Target(e) == 5;
    assert RemoveFirst(e.destinations, 5) == [];
    assert RemoveAll(e.passengers, 5) == [];
  }

  /** `n` steps with no hall calls. A rider draw is never used without a call, so
      one valid draw stands for all of them. */
  function Run(e: Elevator, n: nat): Elevator
    decreases n
  {
    if n == 0 then e
    else
      var draw := [MinDest(e)];
      assert ValidRiders(e, draw);
      Run(Step(e, [], draw).car, n - 1)
  }

  /** Short of its one destination, a car going Up climbs one floor. */
  lemma UpCarClimbs(id: int, c: int, t: int)
    requires c < t
    ensures Step(Elevator(id, c, Up, [t], []), [], [c + 1]).car == Elevator(id, c + 1, Up, [t], [])
  {
    assert Target(Elevator(id, c, Up, [t], [])) == t;
  }

  /** At its one destination, with nobody aboard or waiting, a car goes Idle. */
  lemma UpCarStops(id: int, t: int)
    ensures Step(Elevator(id, t, Up, [t], []), [], [t + 1]).car == Elevator(id, t, Idle, [], [])
  {
    var f := Elevator(id, t, Up, [t], []);
    assert Target(f) == t;
    assert RemoveFirst(f.destinations, t) == [];
  }

  /** A car going Up from floor `c` to its one destination `t` climbs a floor per
      step, reaches `t` after `t - c` steps and goes Idle on the next one. */
  lemma {:induction false} UpRunReachesDestination(id: int, c: int, t: int)
    requires c <= t
    ensures Run(Elevator(id, c, Up, [t], []), t - c) == Elevator(id, t, Up, [t], [])
    ensures Step(Elevator(id, t, Up, [t], []), [], [t + 1]).car == Elevator(id, t, Idle, [], [])
    decreases t - c
  {
    if c < t {
      UpCarClimbs(id, c, t);
      UpRunReachesDestination(id, c + 1, t);
    }
    UpCarStops(id, t);
  }

  /** An Up car whose only destination lies below it finds no stop at or above
      it, so its target is the default 0, which it never reaches by climbing. */
  lemma UpCarPastDestinationClimbs(id: int, c: int, t: int)
    requires t < c && c > 0
    ensures Step(Elevator(id, c, Up, [t], []), [], [c + 1]).car == Elevator(id, c + 1, Up, [t], [])
  {
    assert Target(Elevator(id, c, Up, [t], [])) == 0;
  }

  /** Going Up with every destination below it, a car climbs one floor per step
      without bound (such a car is not well formed, so no tick produces it). */
  lemma {:induction false} UpRunPastDestinationClimbs(id: int, c: int, t: int, n: nat)
    requires t < c && c > 0
    ensures Run(Elevator(id, c, Up, [t], []), n) == Elevator(id, c + n, Up, [t], [])
    ensures !WellFormed(Elevator(id, c, Up, [t], []))
    decreases n
  {
    if n > 0 {
      UpCarPastDestinationClimbs(id, c, t);
      UpRunPastDestinationClimbs(id, c + 1, t, n - 1);
    }
    assert !Heading(Elevator(id, c, Up, [t], []));
  }
}

=== FILE: floor_requests.dfy ===
/** The pending hall-call table (`FloorRequestRepository`): a table keyed by id.
    It is held as the list of its entries in insertion order, which is taken to be
    the order in which `GetPendingAsync` hands them to the engine; `AsMap` is its
    view as a map from id to call. */
module FloorRequests {
  import opened Wrappers
  import opened Domain

  type Store = seq<FloorRequest>

  datatype StoreError = NotFound

  /** No two entries share an id (the hall-call counterpart of
      `Domain.DistinctIds`, which states it for cars). */
  predicate KeyedById(s: Store)
  {
    forall i, j :: 0 <= i < j < |s| ==> s[i].id != s[j].id
  }

  predicate Stores(s: Store, id: int)
  {
    exists i :: 0 <= i < |s| && s[i].id == id
  }

  /** The table as a map from id to call. */
  function AsMap(s: Store): (m: map<int, FloorRequest>)
    requires KeyedById(s)
    ensures forall i :: 0 <= i < |s| ==> s[i].id in m && m[s[i].id] == s[i]
    ensures forall id :: id in m <==> Stores(s, id)
  {
    if |s| == 0 then map[]
    else
      var init := s[..|s| - 1];
      assert forall id :: Stores(s, id) <==> Stores(init, id) || s[|s| - 1].id == id;
      AsMap(init)[s[|s| - 1].id := s[|s| - 1]]
  }

  /** `FindAsync(id)`: position of the entry with this id. `Commands.IndexOfCar`
      is the same search over cars, a different record type. */
  function IndexOfId(s: Store, id: int): (r: Option<nat>)
    ensures r.None? <==> !Stores(s, id)
    ensures r.Some? ==> r.value < |s| && s[r.value].id == id
  {
    if |s| == 0 then None
    else if s[0].id == id then Some(0)
    else
      var rest := IndexOfId(s[1..], id);
      assert forall j :: 0 < j < |s| ==> s[j] == s[1..][j - 1];
      if rest.None? then None else Some(rest.value + 1)
  }

  /** `AddAsync`: store a new call. Ids are generated by the persistence provider,
      so the id given here is one the table does not hold yet. */
  function Add(s: Store, r: FloorRequest): (s': Store)
    requires KeyedById(s) && !Stores(s, r.id)
    ensures KeyedById(s')
    ensures AsMap(s') == AsMap(s)[r.id := r]
  {
    var s' := s + [r];
    assert s'[..|s'| - 1] == s;
    s'
  }

  /** `GetPendingAsync`: every stored call, whatever its assignment, in table order. */
  function GetPending(s: Store): (p: seq<FloorRequest>)
    requires KeyedById(s)
    ensures forall k :: k in AsMap(s) ==> AsMap(s)[k] in p
    ensures forall i :: 0 <= i < |p| ==> p[i].id in AsMap(s) && AsMap(s)[p[i].id] == p[i]
    ensures |p| == |s|
  {
    s
  }

  /** Drop every entry with this id, keeping the others in order. */
  function Without(s: Store, id: int): (s': Store)
    ensures forall x :: x in s' <==> x in s && x.id != id
    ensures KeyedById(s) ==> KeyedById(s')
  {
    if |s| == 0 then []
    else
      var rest := Without(s[1..], id);
      assert forall x :: x in s <==> x == s[0] || x in s[1..];
      if s[0].id == id then rest else [s[0]] + rest
  }

  /** `RemoveAsync`: delete the entry with this id; an absent id is no error. */
  function Remove(s: Store, id: int): (s': Store)
    requires KeyedById(s)
    ensures KeyedById(s')
    ensures AsMap(s') == AsMap(s) - {id}
    ensures !Stores(s, id) ==> s' == s
    ensures forall x :: x in s' ==> x in s
  {
    match IndexOfId(s, id)
    case None =>
      assert AsMap(s) - {id} == AsMap(s);
      s
    case Some(_) =>
      WithoutIsMapRemoval(s, id);
      Without(s, id)
  }

  lemma WithoutIsMapRemoval(s: Store, id: int)
    requires KeyedById(s)
    ensures KeyedById(Without(s, id))
    ensures AsMap(Without(s, id)) == AsMap(s) - {id}
  {
    var t := Without(s, id);
    var m1 := AsMap(t);
    var m2 := AsMap(s) - {id};
    forall k
      ensures k in m1 <==> k in m2
    {
      if Stores(t, k) {
        var i :| 0 <= i < |t| && t[i].id == k;
        assert t[i] in s;
      }
      if Stores(s, k) && k != id {
        var i :| 0 <= i < |s| && s[i].id == k;
        assert s[i] in t;
      }
    }
    forall k | k in m1
      ensures m1[k] == m2[k]
    {
      var i :| 0 <= i < |t| && t[i].id == k;
      assert t[i] in s;
    }
    assert m1 == m2;
  }

  /** Removing the same id twice is removing it once. */
  lemma RemoveIdempotent(s: Store, id: int)
    requires KeyedById(s)
    ensures Remove(Remove(s, id), id) == Remove(s, id)
  {
  }

  /** Removing the id just added gives back the table's content: add and remove
      are inverse as map operations. */
  lemma AddThenRemove(s: Store, r: FloorRequest)
    requires KeyedById(s) && !Stores(s, r.id)
    ensures AsMap(Remove(Add(s, r), r.id)) == AsMap(s)
  {
    assert r.id !in AsMap(s);
    assert AsMap(s)[r.id := r] - {r.id} == AsMap(s);
  }

  /** `UpdateAsync`: replace the stored entry that has the call's id. Updating an
      id the table does not hold fails in the persistence provider. */
  function Update(s: Store, r: FloorRequest): (res: Result<Store, StoreError>)
    requires KeyedById(s)
    ensures res.Success? <==> Stores(s, r.id)
    ensures res.Success? ==> KeyedById(res.value) && AsMap(res.value) == AsMap(s)[r.id := r]
  {
    match IndexOfId(s, r.id)
    case None => Failure(NotFound)
    case Some(i) =>
      ReplaceIsMapUpdate(s, i, r);
      Success(s[i := r])
  }

  lemma ReplaceIsMapUpdate(s: Store, i: nat, r: FloorRequest)
    requires KeyedById(s) && i < |s| && s[i].id == r.id
    ensures KeyedById(s[i := r])
    ensures AsMap(s[i := r]) == AsMap(s)[r.id := r]
  {
    var t := s[i := r];
    var m1 := AsMap(t);
    var m2 := AsMap(s)[r.id := r];
    forall k
      ensures k in m1 <==> k in m2
    {
      if Stores(s, k) {
        var j :| 0 <= j < |s| && s[j].id == k;
        assert t[j].id == k;
      }
    }
    forall k | k in m1
      ensures m1[k] == m2[k]
    {
      var j :| 0 <= j < |t| && t[j].id == k;
    }
    assert m1 == m2;
  }
}

=== FILE: lists.dfy ===
/** The handful of .NET list and LINQ operations the engine relies on, as pure
    functions over sequences of floors. */
module Lists {
  import opened Wrappers

  /** `List<T>.Remove(x)`: deletes the first occurrence of `x`, if any. */
  function RemoveFirst(s: seq<int>, x: int): (r: seq<int>)
    ensures x !in s ==> r == s
    ensures x in s ==> |r| == |s| - 1
  {
    if |s| == 0 then []
    else if s[0] == x then s[1..]
    else [s[0]] + RemoveFirst(s[1..], x)
  }

  /** Position of the first occurrence of `x` in `s`. */
  function FirstIndexOf(s: seq<int>, x: int): (i: nat)
    requires x in s
    ensures i < |s| && s[i] == x && x !in s[..i]
  {
    if s[0] == x then 0 else 1 + FirstIndexOf(s[1..], x)
  }

  /** What `RemoveFirst` cuts out is the first occurrence: everything before it and
      everything after it is kept in place. */
  lemma {:induction false} RemoveFirstCutsFirstOccurrence(s: seq<int>, x: int)
    requires x in s
    ensures RemoveFirst(s, x) == s[..FirstIndexOf(s, x)] + s[FirstIndexOf(s, x) + 1..]
  {
    if s[0] != x {
      var t := s[1..];
      var i := FirstIndexOf(t, x);
      RemoveFirstCutsFirstOccurrence(t, x);
      assert s[..i + 1] == [s[0]] + t[..i];
      assert s[i + 2..] == t[i + 1..];
    }
  }

  /** `RemoveFirst` takes exactly one copy of `x` out of the bag of elements, when
      there is one, and nothing else. */
  lemma {:induction false} RemoveFirstMultiset(s: seq<int>, x: int)
    ensures multiset(RemoveFirst(s, x)) == multiset(s) - multiset{x}
  {
    if |s| > 0 {
      assert s == [s[0]] + s[1..];
      RemoveFirstMultiset(s[1..], x);
      if s[0] != x {
        assert RemoveFirst(s, x) == [s[0]] + RemoveFirst(s[1..], x);
      }
    }
  }

  /** Removing an element that the appended tail does not hold only touches the head. */
  lemma {:induction false} RemoveFirstAppend(s: seq<int>, t: seq<int>, x: int)
    requires x !in t
    ensures RemoveFirst(s + t, x) == RemoveFirst(s, x) + t
  {
    if |s| == 0 {
      assert s + t == t;
    } else {
      assert (s + t)[1..] == s[1..] + t;
      if s[0] != x {
        RemoveFirstAppend(s[1..], t, x);
      }
    }
  }

  /** `Remove` keeps every other value: only `x` can disappear. */
  lemma RemoveFirstKeepsOthers(s: seq<int>, x: int)
    ensures forall d :: d != x ==> (d in RemoveFirst(s, x) <==> d in s)
  {
    RemoveFirstMultiset(s, x);
    forall d | d != x
      ensures d in RemoveFirst(s, x) <==> d in s
    {
      assert multiset(RemoveFirst(s, x))[d] == multiset(s)[d];
    }
  }

  /** `List<T>.RemoveAll(p => p == x)`: deletes every occurrence of `x`. */
  function RemoveAll(s: seq<int>, x: int): (r: seq<int>)
    ensures x !in r
  {
    if |s| == 0 then []
    else if s[0] == x then RemoveAll(s[1..], x)
    else [s[0]] + RemoveAll(s[1..], x)
  }

  /** `RemoveAll` keeps every other element with its multiplicity. */
  lemma {:induction false} RemoveAllMultiset(s: seq<int>, x: int)
    ensures multiset(RemoveAll(s, x)) == multiset(s)[x := 0]
  {
    if |s| > 0 {
      assert s == [s[0]] + s[1..];
      RemoveAllMultiset(s[1..], x);
      if s[0] != x {
        assert RemoveAll(s, x) == [s[0]] + RemoveAll(s[1..], x);
      }
    }
  }

  /** `RemoveAll` keeps order: it distributes over concatenation. */
  lemma {:induction false} RemoveAllAppend(s: seq<int>, t: seq<int>, x: int)
    ensures RemoveAll(s + t, x) == RemoveAll(s, x) + RemoveAll(t, x)
  {
    if |s| == 0 {
      assert s + t == t;
    } else {
      assert (s + t)[1..] == s[1..] + t;
      RemoveAllAppend(s[1..], t, x);
    }
  }

  /** `s.Where(d => d >= lo).DefaultIfEmpty().Min()`: the least element at or above
      `lo`, or the integer default 0 when there is none. */
  function MinAtLeast(s: seq<int>, lo: int): (r: int)
    ensures (exists d :: d in s && d >= lo) ==>
              r in s && r >= lo && forall d :: d in s && d >= lo ==> r <= d
    ensures (forall d :: d in s ==> d < lo) ==> r == 0
  {
    if |s| == 0 then 0
    else
      var rest := MinAtLeast(s[1..], lo);
      assert forall d :: d in s ==> d == s[0] || d in s[1..];
      if s[0] < lo then rest
      else if forall d :: d in s[1..] ==> d < lo then s[0]
      else if s[0] <= rest then s[0]
      else rest
  }

  /** `s.Where(d => d <= hi).DefaultIfEmpty().Max()`: the greatest element at or
      below `hi`, or the integer default 0 when there is none. */
  function MaxAtMost(s: seq<int>, hi: int): (r: int)
    ensures (exists d :: d in s && d <= hi) ==>
              r in s && r <= hi && forall d :: d in s && d <= hi ==> d <= r
    ensures (forall d :: d in s ==> d > hi) ==> r == 0
  {
    if |s| == 0 then 0
    else
      var rest := MaxAtMost(s[1..], hi);
      assert forall d :: d in s ==> d == s[0] || d in s[1..];
      if s[0] > hi then rest
      else if forall d :: d in s[1..] ==> d > hi then s[0]
      else if s[0] >= rest then s[0]
      else rest
  }

  /** `OrderBy(key).First(p)` over a list: LINQ's OrderBy is a stable sort, so the
      pick is the EARLIEST eligible position whose key is minimal among eligible
      positions. `None` when no position is eligible. */
  function FirstMinimal(keys: seq<int>, eligible: seq<bool>): (r: Option<nat>)
    requires |keys| == |eligible|
    ensures r.None? <==> forall j :: 0 <= j < |keys| ==> !eligible[j]
    ensures r.Some? ==> r.value < |keys| && eligible[r.value]
    ensures r.Some? ==> forall j :: 0 <= j < |keys| && eligible[j] ==> keys[r.value] <= keys[j]
    ensures r.Some? ==> forall j :: 0 <= j < r.value && eligible[j] ==> keys[r.value] < keys[j]
  {
    if |keys| == 0 then None
    else
      var rest := FirstMinimal(keys[1..], eligible[1..]);
      if !eligible[0] then
        (if rest.None? then None else Some(rest.value + 1))
      else if rest.None? || keys[0] <= keys[rest.value + 1] then Some(0)
      else Some(rest.value + 1)
  }
}

=== FILE: simulation.dfy ===
/** One tick of the simulation loop (`ExecuteAsync`): maybe add a random hall
    call, then step every car once, in ascending id order, each against the
    pending table as the cars before it left it. */
module Simulation {
  import opened Wrappers
  import opened Domain
  import opened Engine
  import opened FloorRequests

  /** The random hall call of a tick: a fresh id (from the provider), a floor of
      the building and a direction, Up or Down. */
  datatype HallCall = HallCall(id: int, floor: int, direction: Direction)

  predicate ValidHallCall(c: HallCall, requests: Store)
  {
    !Stores(requests, c.id) && InBuilding(c.floor) && c.direction != Idle
  }

  /** The cars after a tick (in ascending id order), the pending table after it,
      and the ids of the calls the cars consumed, in the order they did. */
  datatype TickOutcome = TickOutcome(cars: seq<Elevator>, requests: Store, consumed: seq<int>)

  predicate SortedById(cars: seq<Elevator>)
  {
    forall i, j :: 0 <= i < j < |cars| ==> cars[i].id <= cars[j].id
  }

  function Insert(e: Elevator, sorted: seq<Elevator>): (r: seq<Elevator>)
    requires SortedById(sorted)
    ensures SortedById(r)
    ensures |r| == |sorted| + 1
    ensures r[0] == e || (|sorted| > 0 && r[0] == sorted[0])
  {
    if |sorted| == 0 then [e]
    else if e.id <= sorted[0].id then [e] + sorted
    else [sorted[0]] + Insert(e, sorted[1..])
  }

  lemma {:induction false} InsertMultiset(e: Elevator, sorted: seq<Elevator>)
    requires SortedById(sorted)
    ensures multiset(Insert(e, sorted)) == multiset(sorted) + multiset{e}
  {
    if |sorted| > 0 && e.id > sorted[0].id {
      assert sorted == [sorted[0]] + sorted[1..];
      InsertMultiset(e, sorted[1..]);
    }
  }

  /** `OrderBy(e => e.Id)`: the same cars, by ascending id. */
  function SortById(cars: seq<Elevator>): (r: seq<Elevator>)
    ensures SortedById(r)
    ensures |r| == |cars|
  {
    if |cars| == 0 then [] else Insert(cars[0], SortById(cars[1..]))
  }

  /** Sorting by id only reorders the cars. */
  lemma {:induction false} SortByIdPermutes(cars: seq<Elevator>)
    ensures multiset(SortById(cars)) == multiset(cars)
  {
    if |cars| > 0 {
      assert cars == [cars[0]] + cars[1..];
      SortByIdPermutes(cars[1..]);
      InsertMultiset(cars[0], SortById(cars[1..]));
    }
  }

  /** The ids of a list of cars, in order. */
  function Ids(cars: seq<Elevator>): (ids: seq<int>)
    ensures |ids| == |cars|
  {
    if |cars| == 0 then [] else [cars[0].id] + Ids(cars[1..])
  }

  /** Cars with the same ids position by position have the same id list. */
  lemma {:induction false} SameIds(a: seq<Elevator>, b: seq<Elevator>)
    requires |a| == |b|
    requires forall i :: 0 <= i < |a| ==> a[i].id == b[i].id
    ensures Ids(a) == Ids(b)
  {
    if |a| > 0 {
      assert forall i :: 0 <= i < |a| - 1 ==> a[1..][i] == a[i + 1] && b[1..][i] == b[i + 1];
      SameIds(a[1..], b[1..]);
    }
  }

  lemma {:induction false} InsertIds(e: Elevator, sorted: seq<Elevator>)
    requires SortedById(sorted)
    ensures multiset(Ids(Insert(e, sorted))) == multiset(Ids(sorted)) + multiset{e.id}
  {
    if |sorted| == 0 {
      assert Ids([e]) == [e.id] + Ids([]);
    } else if e.id <= sorted[0].id {
      assert ([e] + sorted)[1..] == sorted;
    } else {
      var r := [sorted[0]] + Insert(e, sorted[1..]);
      assert r[1..] == Insert(e, sorted[1..]);
      InsertIds(e, sorted[1..]);
    }
  }

  /** Sorting keeps every id, each as often. */
  lemma {:induction false} SortByIdKeepsIds(cars: seq<Elevator>)
    ensures multiset(Ids(SortById(cars))) == multiset(Ids(cars))
  {
    if |cars| > 0 {
      SortByIdKeepsIds(cars[1..]);
      InsertIds(cars[0], SortById(cars[1..]));
    }
  }

  /** Every car of the list has a valid draw of boarding riders. */
  predicate DrawsFor(cars: seq<Elevator>, riders: map<int, seq<int>>)
  {
    forall i :: 0 <= i < |cars| ==> cars[i].id in riders && ValidRiders(cars[i], riders[cars[i].id])
  }

  /** Removes the consumed call, if any, from the table. */
  function Consume(requests: Store, taken: Option<int>): (s': Store)
    requires KeyedById(requests)
    ensures KeyedById(s')
    ensures taken.None? ==> s' == requests
    ensures taken.Some? ==> AsMap(s') == AsMap(requests) - {taken.value}
    ensures forall x :: x in s' ==> x in requests
  {
    match taken
    case None => requests
    case Some(id) => Remove(requests, id)
  }

  /** The ids a car's step reports as consumed: the call it took, if any. */
  function TakenIds(taken: Option<int>): seq<int>
  {
    if taken.Some? then [taken.value] else []
  }

  /** The per-tick `foreach`: step the cars in list order, re-reading the pending
      table before each one. */
  function StepAll(cars: seq<Elevator>, requests: Store, riders: map<int, seq<int>>): (r: TickOutcome)
    requires KeyedById(requests)
    requires DrawsFor(cars, riders)
    ensures |r.cars| == |cars|
    ensures forall i :: 0 <= i < |cars| ==> r.cars[i].id == cars[i].id
    ensures |r.consumed| <= |cars|
    ensures KeyedById(r.requests)
  {
    if |cars| == 0 then TickOutcome([], requests, [])
    else
      var e := cars[0];
      DrawsForTail(cars, riders);
      var out := Step(e, GetPending(requests), riders[e.id]);
      var rest := StepAll(cars[1..], Consume(requests, out.taken), riders);
      SameIdsCons(cars, out.car, rest.cars);
      TickOutcome([out.car] + rest.cars, rest.requests, TakenIds(out.taken) + rest.consumed)
  }

  /** Prepending a car with the first car's id to cars matching the rest keeps
      ids matching position by position. */
  lemma SameIdsCons(cars: seq<Elevator>, first: Elevator, rest: seq<Elevator>)
    requires |cars| > 0 && first.id == cars[0].id && |rest| == |cars| - 1
    requires forall i :: 0 <= i < |rest| ==> rest[i].id == cars[1..][i].id
    ensures forall i :: 0 <= i < |cars| ==> ([first] + rest)[i].id == cars[i].id
  {
    forall i | 0 < i < |cars|
      ensures ([first] + rest)[i].id == cars[i].id
    {
      assert ([first] + rest)[i] == rest[i - 1];
      assert cars[1..][i - 1] == cars[i];
    }
  }

  /** Draws for a joined list are draws for each part. */
  lemma DrawsForSplit(a: seq<Elevator>, b: seq<Elevator>, riders: map<int, seq<int>>)
    requires DrawsFor(a + b, riders)
    ensures DrawsFor(a, riders) && DrawsFor(b, riders)
  {
    assert forall i :: 0 <= i < |a| ==> (a + b)[i] == a[i];
    assert forall i :: 0 <= i < |b| ==> (a + b)[|a| + i] == b[i];
  }

  /** The fold runs left to right: stepping `a + b` steps `a` first, then steps
      `b` against the table `a` left, and reports `a`'s consumed calls before
      `b`'s. */
  lemma {:induction false} StepAllAppend(a: seq<Elevator>, b: seq<Elevator>, requests: Store,
                                         riders: map<int, seq<int>>)
    requires KeyedById(requests)
    requires DrawsFor(a, riders) && DrawsFor(b, riders) && DrawsFor(a + b, riders)
    ensures var first := StepAll(a, requests, riders);
      var second := StepAll(b, first.requests, riders);
      StepAll(a + b, requests, riders)
        == TickOutcome(first.cars + second.cars, second.requests, first.consumed + second.consumed)
  {
    if |a| == 0 {
      assert a + b == b;
    } else {
      var e := a[0];
      DrawsForTail(a, riders);
      var out := Step(e, GetPending(requests), riders[e.id]);
      var requests1 := Consume(requests, out.taken);
      StepAllAppend(a[1..], b, requests1, riders);
      TailOfAppend(a, b);
      StepAllUnfold(a + b, requests, riders);
      var rest := StepAll(a[1..], requests1, riders);
      var second := StepAll(b, rest.requests, riders);
      JoinOutcomes(out.car, TakenIds(out.taken), rest, second);
    }
  }

  /** The fold's first step, stated once so that callers need not unfold it. */
  lemma StepAllUnfold(cars: seq<Elevator>, requests: Store, riders: map<int, seq<int>>)
    requires KeyedById(requests) && DrawsFor(cars, riders) && |cars| > 0
    ensures cars[0].id in riders && ValidRiders(cars[0], riders[cars[0].id])
    ensures DrawsFor(cars[1..], riders)
    ensures var out := Step(cars[0], GetPending(requests), riders[cars[0].id]);
      var rest := StepAll(cars[1..], Consume(requests, out.taken), riders);
      StepAll(cars, requests, riders)
        == TickOutcome([out.car] + rest.cars, rest.requests, TakenIds(out.taken) + rest.consumed)
  {
    DrawsForTail(cars, riders);
  }

  lemma TailOfAppend<T>(a: seq<T>, b: seq<T>)
    requires |a| > 0
    ensures (a + b)[0] == a[0] && (a + b)[1..] == a[1..] + b
  {
  }

  /** Re-associating the outcome of one car followed by two folds. */
  lemma JoinOutcomes(car: Elevator, taken: seq<int>, rest: TickOutcome, second: TickOutcome)
    ensures TickOutcome([car] + (rest.cars + second.cars), second.requests, taken + (rest.consumed + second.consumed))
         == TickOutcome(([car] + rest.cars) + second.cars, second.requests, (taken + rest.consumed) + second.consumed)
  {
    assert [car] + (rest.cars + second.cars) == ([car] + rest.cars) + second.cars;
    assert taken + (rest.consumed + second.consumed) == (taken + rest.consumed) + second.consumed;
  }

  /** A single car's fold is that car's step. */
  lemma StepAllOne(e: Elevator, requests: Store, riders: map<int, seq<int>>)
    requires KeyedById(requests)
    requires e.id in riders && ValidRiders(e, riders[e.id])
    ensures DrawsFor([e], riders)
    ensures var out := Step(e, GetPending(requests), riders[e.id]);
      StepAll([e], requests, riders)
        == TickOutcome([out.car], Consume(requests, out.taken), TakenIds(out.taken))
  {
    assert [e][1..] == [];
  }

  /** The tick steps every car: the `i`-th car comes back as its own step against
      the pending table the cars before it left, the table after it is that table
      less the call it took, and the consumed list grows by exactly that call.
      What the first `i + 1` cars produce is a prefix of the whole fold's result,
      and the last car's table is the tick's table. */
  lemma StepAllStepsEachCar(cars: seq<Elevator>, requests: Store, riders: map<int, seq<int>>, i: int)
    requires KeyedById(requests) && DrawsFor(cars, riders)
    requires 0 <= i < |cars|
    ensures DrawsFor(cars[..i], riders) && DrawsFor(cars[..i + 1], riders)
    ensures cars[i].id in riders && ValidRiders(cars[i], riders[cars[i].id])
    ensures var r := StepAll(cars, requests, riders);
      var before := StepAll(cars[..i], requests, riders);
      var out := Step(cars[i], GetPending(before.requests), riders[cars[i].id]);
      var upto := StepAll(cars[..i + 1], requests, riders);
      && r.cars[i] == out.car
      && upto.requests == Consume(before.requests, out.taken)
      && upto.consumed == before.consumed + TakenIds(out.taken)
      && upto.cars == r.cars[..i + 1]
      && upto.consumed <= r.consumed
      && (i + 1 == |cars| ==> upto == r)
  {
    var pre, tail := cars[..i + 1], cars[i + 1..];
    assert cars == pre + tail;
    DrawsForSplit(pre, tail, riders);
    assert pre == cars[..i] + [cars[i]];
    DrawsForSplit(cars[..i], [cars[i]], riders);
    var before := StepAll(cars[..i], requests, riders);
    StepAllAppend(cars[..i], [cars[i]], requests, riders);
    StepAllOne(cars[i], before.requests, riders);
    var upto := StepAll(pre, requests, riders);
    StepAllAppend(pre, tail, requests, riders);
    var r := StepAll(cars, requests, riders);
    assert r.cars == upto.cars + StepAll(tail, upto.requests, riders).cars;
    assert r.cars[..i + 1] == upto.cars;
    if i + 1 == |cars| {
      assert cars[..i + 1] == cars;
    }
  }

  /** `after` is `before` with exactly the calls `consumed` taken out, each of
      them pending in `before` and none of them taken twice. */
  predicate ConsumedFrom(before: Store, after: Store, consumed: seq<int>)
  {
    && KeyedById(before)
    && KeyedById(after)
    && (forall x :: x in after ==> x in before)
    && (forall i, j :: 0 <= i < j < |consumed| ==> consumed[i] != consumed[j])
    && (forall i :: 0 <= i < |consumed| ==> Stores(before, consumed[i]))
    && AsMap(after) == AsMap(before) - set id | id in consumed
  }

  /** Taking out the one call a car reports, when it was pending. */
  lemma ConsumeOne(requests: Store, taken: Option<int>)
    requires KeyedById(requests)
    requires taken.Some? ==> Stores(requests, taken.value)
    ensures ConsumedFrom(requests, Consume(requests, taken), TakenIds(taken))
  {
    match taken
    case None => ConsumeNothing(requests);
    case Some(id) => ConsumeCall(requests, id);
  }

  /** A car that reports no call leaves the table as it was. */
  lemma ConsumeNothing(requests: Store)
    requires KeyedById(requests)
    ensures ConsumedFrom(requests, requests, [])
  {
    assert (set id: int | id in []) == {};
    assert AsMap(requests) - {} == AsMap(requests);
  }

  /** A car that reports a pending call takes exactly that call out. */
  lemma ConsumeCall(requests: Store, id: int)
    requires KeyedById(requests) && Stores(requests, id)
    ensures ConsumedFrom(requests, Remove(requests, id), [id])
  {
    var after := Remove(requests, id);
    assert AsMap(after) == AsMap(requests) - {id};
    assert (set x | x in [id]) == {id};
  }

  /** One car's step consumes at most the one call it reports, and that call
      was pending. */
  lemma StepConsumes(e: Elevator, requests: Store, draw: seq<int>)
    requires KeyedById(requests) && ValidRiders(e, draw)
    ensures var out := Step(e, GetPending(requests), draw);
      ConsumedFrom(requests, Consume(requests, out.taken),
                   TakenIds(out.taken))
  {
    var out := Step(e, GetPending(requests), draw);
    if out.taken.Some? {
      var j :| 0 <= j < |requests| && requests[j].id == out.taken.value;
      assert Stores(requests, out.taken.value);
    }
    ConsumeOne(requests, out.taken);
  }

  /** Consumption composes: what the first car leaves, the others consume from. */
  lemma ConsumedFromChains(s0: Store, s1: Store, s2: Store, first: seq<int>, later: seq<int>)
    requires ConsumedFrom(s0, s1, first) && ConsumedFrom(s1, s2, later)
    ensures ConsumedFrom(s0, s2, first + later)
  {
    var all := first + later;
    forall i | 0 <= i < |later|
      ensures later[i] !in first && Stores(s0, later[i])
    {
      assert later[i] in AsMap(s1);
    }
    forall i, j | 0 <= i < j < |all|
      ensures all[i] != all[j]
    {
      if i < |first| && j >= |first| {
        assert all[j] == later[j - |first|];
      }
    }
    assert (set id | id in all) == (set id | id in first) + (set id | id in later);
  }

  /** No call is consumed twice in a tick: every consumed id was pending when its
      car stepped, the ids are distinct, and exactly the consumed calls leave the
      table. */
  lemma {:induction false} StepAllConsumesOnce(cars: seq<Elevator>, requests: Store, riders: map<int, seq<int>>)
    requires KeyedById(requests)
    requires DrawsFor(cars, riders)
    ensures var r := StepAll(cars, requests, riders);
      ConsumedFrom(requests, r.requests, r.consumed)
  {
    if |cars| == 0 {
      assert AsMap(requests) - (set id: int | id in []) == AsMap(requests);
    } else {
      var e := cars[0];
      var out := Step(e, GetPending(requests), riders[e.id]);
      var requests1 := Consume(requests, out.taken);
      assert DrawsFor(cars[1..], riders) by {
        assert forall i :: 0 <= i < |cars| - 1 ==> cars[1..][i] == cars[i + 1];
      }
      StepConsumes(e, requests, riders[e.id]);
      StepAllConsumesOnce(cars[1..], requests1, riders);
      var rest := StepAll(cars[1..], requests1, riders);
      ConsumedFromChains(requests, requests1, rest.requests,
                         TakenIds(out.taken), rest.consumed);
    }
  }

  /** The hall call of a tick as stored: unassigned. */
  function CallRecord(c: HallCall): FloorRequest
  {
    FloorRequest(c.id, c.floor, c.direction, None)
  }

  /** Step 1 of a tick: the random hall call, if the coin came up, is stored. */
  function AddCall(requests: Store, call: Option<HallCall>): (s': Store)
    requires KeyedById(requests)
    requires call.Some? ==> ValidHallCall(call.value, requests)
    ensures KeyedById(s')
    ensures call.None? ==> s' == requests
    ensures call.Some? ==> AsMap(s') == AsMap(requests)[call.value.id := CallRecord(call.value)]
  {
    if call.Some? then Add(requests, CallRecord(call.value)) else requests
  }

  /** Sorting keeps every car's draw. */
  lemma SortedDraws(cars: seq<Elevator>, riders: map<int, seq<int>>)
    requires DrawsFor(cars, riders)
    ensures DrawsFor(SortById(cars), riders)
  {
    var order := SortById(cars);
    SortByIdPermutes(cars);
    forall i | 0 <= i < |order|
      ensures order[i].id in riders && ValidRiders(order[i], riders[order[i].id])
    {
      assert order[i] in multiset(cars);
    }
  }

  /** One tick: with the coin's say-so, add one random hall call; then step every
      car once, in ascending id order, each against the table the cars before it
      left. The cars come back sorted by id, each exactly once. */
  function Tick(cars: seq<Elevator>, requests: Store, call: Option<HallCall>,
                riders: map<int, seq<int>>): (r: TickOutcome)
    requires KeyedById(requests)
    requires call.Some? ==> ValidHallCall(call.value, requests)
    requires DrawsFor(cars, riders)
    ensures SortedById(r.cars)
    ensures |r.cars| == |cars|
    ensures forall i :: 0 <= i < |cars| ==> r.cars[i].id == SortById(cars)[i].id
    ensures multiset(Ids(r.cars)) == multiset(Ids(cars))
  {
    SortedDraws(cars, riders);
    SortByIdKeepsIds(cars);
    var order := SortById(cars);
    var out := StepAll(order, AddCall(requests, call), riders);
    SameIdsSorted(order, out.cars);
    SameIds(out.cars, order);
    out
  }

  /** A tick steps every car in ascending id order against the table with the
      tick's hall call added: the `i`-th car by id comes back as its own step
      against the table the cars before it left (the first car sees the call
      just added), and the consumed list grows by exactly the call it took; the
      last car's table and consumed list are the tick's. */
  lemma TickStepsEachCar(cars: seq<Elevator>, requests: Store, call: Option<HallCall>,
                         riders: map<int, seq<int>>, i: int)
    requires KeyedById(requests)
    requires call.Some? ==> ValidHallCall(call.value, requests)
    requires DrawsFor(cars, riders)
    requires 0 <= i < |cars|
    ensures DrawsFor(SortById(cars), riders)
    ensures DrawsFor(SortById(cars)[..i], riders) && DrawsFor(SortById(cars)[..i + 1], riders)
    ensures SortById(cars)[i].id in riders && ValidRiders(SortById(cars)[i], riders[SortById(cars)[i].id])
    ensures var order, added := SortById(cars), AddCall(requests, call);
      var r := Tick(cars, requests, call, riders);
      var before := StepAll(order[..i], added, riders);
      var out := Step(order[i], GetPending(before.requests), riders[order[i].id]);
      var upto := StepAll(order[..i + 1], added, riders);
      && (i == 0 ==> before == TickOutcome([], added, []))
      && r.cars[i] == out.car
      && upto.requests == Consume(before.requests, out.taken)
      && upto.consumed == before.consumed + TakenIds(out.taken)
      && upto.consumed <= r.consumed
      && (i + 1 == |cars| ==> upto == r)
  {
    SortedDraws(cars, riders);
    var order := SortById(cars);
    StepAllStepsEachCar(order, AddCall(requests, call), riders, i);
    if i == 0 {
      assert order[..0] == [];
    }
  }

  /** Cars carrying, position by position, the ids of a sorted list are sorted. */
  lemma SameIdsSorted(order: seq<Elevator>, out: seq<Elevator>)
    requires SortedById(order) && |out| == |order|
    requires forall i :: 0 <= i < |order| ==> out[i].id == order[i].id
    ensures SortedById(out)
  {
  }

  /** What a tick does to the pending table: `after` holds only calls that were
      pending before or are the tick's own `call`; `consumed` lists distinct calls,
      each pending before or the tick's own; and every call not consumed, the
      tick's own included, is still pending after. */
  predicate ConsumedOnce(before: Store, call: Option<HallCall>, after: Store, consumed: seq<int>)
    requires KeyedById(before) && KeyedById(after)
  {
    && (forall id :: id in AsMap(after) ==> id in AsMap(before) || (call.Some? && id == call.value.id))
    && (forall i, j :: 0 <= i < j < |consumed| ==> consumed[i] != consumed[j])
    && (forall i :: 0 <= i < |consumed| ==>
          consumed[i] in AsMap(before) || (call.Some? && consumed[i] == call.value.id))
    && (forall id :: id in AsMap(before) && id !in consumed ==> id in AsMap(after))
    && (call.Some? && call.value.id !in consumed ==> call.value.id in AsMap(after))
  }

  /** Consuming from the table the hall call was added to is consuming once. */
  lemma AddThenConsume(requests: Store, call: Option<HallCall>, added: Store, after: Store,
                       consumed: seq<int>)
    requires KeyedById(requests) && KeyedById(added)
    requires call.None? ==> AsMap(added) == AsMap(requests)
    requires call.Some? ==> AsMap(added) == AsMap(requests)[call.value.id := CallRecord(call.value)]
    requires ConsumedFrom(added, after, consumed)
    ensures KeyedById(after)
    ensures ConsumedOnce(requests, call, after, consumed)
  {
    var gone := set id | id in consumed;
    assert AsMap(after) == AsMap(added) - gone;
    forall i | 0 <= i < |consumed|
      ensures consumed[i] in AsMap(requests) || (call.Some? && consumed[i] == call.value.id)
    {
      assert consumed[i] in AsMap(added);
    }
    forall id | id in AsMap(requests) && id !in consumed
      ensures id in AsMap(after)
    {
      assert id in AsMap(added) && id !in gone;
    }
    if call.Some? && call.value.id !in consumed {
      assert call.value.id in AsMap(added) && call.value.id !in gone;
    }
  }

  /** A tick adds at most one call, its own, and consumes no call twice: every
      consumed call was pending (or is the tick's own), and every call not
      consumed is still pending afterwards. */
  lemma TickConsumesOnce(cars: seq<Elevator>, requests: Store, call: Option<HallCall>,
                         riders: map<int, seq<int>>)
    requires KeyedById(requests)
    requires call.Some? ==> ValidHallCall(call.value, requests)
    requires DrawsFor(cars, riders)
    ensures KeyedById(Tick(cars, requests, call, riders).requests)
    ensures var r := Tick(cars, requests, call, riders);
      ConsumedOnce(requests, call, r.requests, r.consumed)
    ensures var r := Tick(cars, requests, call, riders);
      ConsumedFrom(AddCall(requests, call), r.requests, r.consumed)
  {
    SortedDraws(cars, riders);
    var added := AddCall(requests, call);
    StepAllConsumesOnce(SortById(cars), added, riders);
    var r := StepAll(SortById(cars), added, riders);
    AddThenConsume(requests, call, added, r.requests, r.consumed);
  }

  /** Every pending call is for a floor of the building. */
  predicate CallsInBuilding(requests: Store)
  {
    forall j :: 0 <= j < |requests| ==> InBuilding(requests[j].floor)
  }

  predicate AllWellFormed(cars: seq<Elevator>)
  {
    forall i :: 0 <= i < |cars| ==> WellFormed(cars[i])
  }

  /** One car's step keeps the table's calls inside the building. */
  lemma ConsumeKeepsCallsInBuilding(requests: Store, taken: Option<int>)
    requires KeyedById(requests) && CallsInBuilding(requests)
    ensures CallsInBuilding(Consume(requests, taken))
  {
    var requests1 := Consume(requests, taken);
    forall j | 0 <= j < |requests1|
      ensures InBuilding(requests1[j].floor)
    {
      assert requests1[j] in requests;
    }
  }

  lemma AllWellFormedSplit(cars: seq<Elevator>)
    requires |cars| > 0
    ensures AllWellFormed(cars) <==> WellFormed(cars[0]) && AllWellFormed(cars[1..])
  {
    assert forall i :: 0 < i < |cars| ==> cars[i] == cars[1..][i - 1];
  }

  lemma DrawsForTail(cars: seq<Elevator>, riders: map<int, seq<int>>)
    requires |cars| > 0 && DrawsFor(cars, riders)
    ensures cars[0].id in riders && ValidRiders(cars[0], riders[cars[0].id])
    ensures DrawsFor(cars[1..], riders)
  {
    assert forall i :: 0 <= i < |cars| - 1 ==> cars[1..][i] == cars[i + 1];
  }

  lemma {:induction false} StepAllPreservesWellFormed(cars: seq<Elevator>, requests: Store,
                                                      riders: map<int, seq<int>>)
    requires KeyedById(requests) && CallsInBuilding(requests)
    requires DrawsFor(cars, riders)
    requires AllWellFormed(cars)
    ensures CallsInBuilding(StepAll(cars, requests, riders).requests)
    ensures AllWellFormed(StepAll(cars, requests, riders).cars)
  {
    if |cars| > 0 {
      var e := cars[0];
      DrawsForTail(cars, riders);
      AllWellFormedSplit(cars);
      var out := Step(e, GetPending(requests), riders[e.id]);
      var requests1 := Consume(requests, out.taken);
      StepPreservesWellFormed(e, requests, riders[e.id]);
      ConsumeKeepsCallsInBuilding(requests, out.taken);
      StepAllPreservesWellFormed(cars[1..], requests1, riders);
      var rest := StepAll(cars[1..], requests1, riders);
      var all := [out.car] + rest.cars;
      assert all[1..] == rest.cars;
      AllWellFormedSplit(all);
    }
  }

  /** Stepping every car keeps Idle exactly when empty for each car that had it. */
  lemma {:induction false} StepAllKeepsIdleIffEmpty(cars: seq<Elevator>, requests: Store,
                                                    riders: map<int, seq<int>>)
    requires KeyedById(requests)
    requires DrawsFor(cars, riders)
    ensures var r := StepAll(cars, requests, riders);
      forall i :: 0 <= i < |cars| && IdleIffEmpty(cars[i]) ==> IdleIffEmpty(r.cars[i])
  {
    if |cars| > 0 {
      var e := cars[0];
      DrawsForTail(cars, riders);
      var out := Step(e, GetPending(requests), riders[e.id]);
      var requests1 := Consume(requests, out.taken);
      StepAllKeepsIdleIffEmpty(cars[1..], requests1, riders);
      var rest := StepAll(cars[1..], requests1, riders);
      assert StepAll(cars, requests, riders).cars == [out.car] + rest.cars;
      KeepsIdleIffEmptyCons(cars, out.car, rest.cars);
    }
  }

  /** Prepending the first car's successor to successors of the rest keeps the
      position-wise "Idle exactly when empty" implication. */
  lemma KeepsIdleIffEmptyCons(cars: seq<Elevator>, first: Elevator, rest: seq<Elevator>)
    requires |cars| > 0 && |rest| == |cars| - 1
    requires IdleIffEmpty(cars[0]) ==> IdleIffEmpty(first)
    requires forall i :: 0 <= i < |rest| && IdleIffEmpty(cars[1..][i]) ==> IdleIffEmpty(rest[i])
    ensures forall i :: 0 <= i < |cars| && IdleIffEmpty(cars[i]) ==> IdleIffEmpty(([first] + rest)[i])
  {
    forall i | 0 < i < |cars| && IdleIffEmpty(cars[i])
      ensures IdleIffEmpty(([first] + rest)[i])
    {
      assert cars[i] == cars[1..][i - 1];
      assert ([first] + rest)[i] == rest[i - 1];
    }
  }

  /** A reordering of cars that are all Idle exactly when empty has the same
      property at every position. */
  lemma ReorderKeepsIdleIffEmpty(cars: seq<Elevator>, order: seq<Elevator>)
    requires multiset(order) == multiset(cars)
    requires forall x :: x in cars ==> IdleIffEmpty(x)
    ensures forall i :: 0 <= i < |order| ==> IdleIffEmpty(order[i])
  {
    forall i | 0 <= i < |order|
      ensures IdleIffEmpty(order[i])
    {
      assert order[i] in multiset(cars);
    }
  }

  /** Ticks keep every car well formed (Idle exactly when it has no destinations,
      heading towards one, inside the building, riders' floors among its
      destinations) and every pending call inside the building. */
  lemma TickPreservesWellFormed(cars: seq<Elevator>, requests: Store, call: Option<HallCall>,
                                riders: map<int, seq<int>>)
    requires KeyedById(requests) && CallsInBuilding(requests)
    requires call.Some? ==> ValidHallCall(call.value, requests)
    requires DrawsFor(cars, riders)
    requires forall x :: x in cars ==> WellFormed(x)
    ensures CallsInBuilding(Tick(cars, requests, call, riders).requests)
    ensures AllWellFormed(Tick(cars, requests, call, riders).cars)
  {
    SortedDraws(cars, riders);
    var order := SortById(cars);
    SortByIdPermutes(cars);
    forall i | 0 <= i < |order|
      ensures WellFormed(order[i])
    {
      assert order[i] in multiset(cars);
    }
    var requests1 := AddCall(requests, call);
    assert CallsInBuilding(requests1);
    StepAllPreservesWellFormed(order, requests1, riders);
  }

  /** The weakest form of the invariant survives a tick on its own: a car with no
      destinations is Idle, and an Idle car has none. */
  lemma TickKeepsIdleIffEmpty(cars: seq<Elevator>, requests: Store, call: Option<HallCall>,
                              riders: map<int, seq<int>>)
    requires KeyedById(requests)
    requires call.Some? ==> ValidHallCall(call.value, requests)
    requires DrawsFor(cars, riders)
    requires forall x :: x in cars ==> IdleIffEmpty(x)
    ensures var r := Tick(cars, requests, call, riders);
      forall i :: 0 <= i < |r.cars| ==> IdleIffEmpty(r.cars[i])
  {
    SortedDraws(cars, riders);
    SortByIdPermutes(cars);
    ReorderKeepsIdleIffEmpty(cars, SortById(cars));
    StepAllKeepsIdleIffEmpty(SortById(cars), AddCall(requests, call), riders);
  }
}

=== FILE: status.dfy ===
/** The status query (`GetElevatorStatusQueryHandler.Handle`): one status record
    per car, in the order the store lists them. */
module Status {
  import opened Domain

  /** The status record sent to clients. Its passenger list is meant to carry
      the floors the riders are bound for. */
  datatype ElevatorStatus = ElevatorStatus(
    id: int,
    currentFloor: int,
    direction: Direction,
    destinations: seq<int>,
    passengers: seq<int>)

  /** `Handle` as written: id, floor, direction and destinations are copied; the
      passenger list is left at its default, empty. */
  function GetStatus(cars: seq<Elevator>): (r: seq<ElevatorStatus>)
    ensures |r| == |cars|
    ensures forall i :: 0 <= i < |cars| ==>
              && r[i].id == cars[i].id
              && r[i].currentFloor == cars[i].currentFloor
              && r[i].direction == cars[i].direction
              && r[i].destinations == cars[i].destinations
              && r[i].passengers == []
  {
    if |cars| == 0 then []
    else
      var e := cars[0];
      [ElevatorStatus(e.id, e.currentFloor, e.direction, e.destinations, [])] + GetStatus(cars[1..])
  }

  /** One car at floor 3: one record, reporting floor 3. */
  lemma StatusReportsFloor()
    ensures var r := GetStatus([NewElevator(1).(currentFloor := 3)]);
      |r| == 1 && r[0].currentFloor == 3
  {
  }

  /** The status as written never reports a rider: a car carrying a passenger
      bound for floor 5 is reported with an empty passenger list. */
  lemma StatusDropsPassengers()
    ensures var e := Elevator(1, 4, Up, [5], [5]);
      GetStatus([e])[0].passengers != e.passengers
  {
  }

  /** Corrected query: the passenger list is copied like the destinations. */
  function GetStatusWithPassengers(cars: seq<Elevator>): (r: seq<ElevatorStatus>)
    ensures |r| == |cars|
    ensures forall i :: 0 <= i < |cars| ==>
              && r[i].id == cars[i].id
              && r[i].currentFloor == cars[i].currentFloor
              && r[i].direction == cars[i].direction
              && r[i].destinations == cars[i].destinations
              && r[i].passengers == cars[i].passengers
  {
    if |cars| == 0 then []
    else
      var e := cars[0];
      [ElevatorStatus(e.id, e.currentFloor, e.direction, e.destinations, e.passengers)]
        + GetStatusWithPassengers(cars[1..])
  }

  /** Back from a status record to the car it describes. */
  function AsElevator(s: ElevatorStatus): Elevator
  {
    Elevator(s.id, s.currentFloor, s.direction, s.destinations, s.passengers)
  }

  /** The corrected status loses nothing: every car can be rebuilt from its
      record, so the report is exactly the store's content. */
  lemma {:induction false} StatusRoundTrip(cars: seq<Elevator>)
    ensures forall i :: 0 <= i < |cars| ==> AsElevator(GetStatusWithPassengers(cars)[i]) == cars[i]
    ensures GetStatus(cars) == GetStatusWithPassengers(seq(|cars|, i requires 0 <= i < |cars| => cars[i].(passengers := [])))
  {
    var stripped := seq(|cars|, i requires 0 <= i < |cars| => cars[i].(passengers := []));
    var a := GetStatus(cars);
    var b := GetStatusWithPassengers(stripped);
    assert |a| == |b|;
    forall i | 0 <= i < |a| ensures a[i] == b[i] {
    }
  }
}

=== FILE: wrappers.dfy ===
/** Optional values and success-or-failure results, used for the places where the
    source returns null or throws. */
module Wrappers {

  datatype Option<+T> = None | Some(value: T)

  datatype Result<+T, +E> = Success(value: T) | Failure(error: E)
}
